=== FILE: README.md ===
# Scene graph and rhythm game step — a Dafny model

This project models the sequential core of a small OpenGL arcade game in which
a ball bounces in a box in time with music and the player must keep a paddle
under the ball whenever it lands. Three parts are modelled:

- **Scene graph** (`src/sceneGraph.hpp`, `src/sceneGraph.cpp`): the `SceneNode`
  record with its constructor defaults, the closed node-kind enum (GEOMETRY,
  GEOMETRY_2D, NORMAL_MAPPED_GEOMETRY, POINT_LIGHT, SPOT_LIGHT), node and light
  creation (the static light counter becomes an explicit `LightRegistry`),
  `addChild` and `totalChildren`. On top of the same tree are the three
  traversals of `src/gamelogic.cpp`: transform propagation
  (`updateNodeTransformations`), the draw walk (`renderNode`) and the light walk
  (`updateLightsInShader`). Matrices are type parameters. Their operations
  (product, translate, rotate, scale, normal matrix, translation column) are
  supplied uninterpreted in a `MatrixOps` record. The draw and light walks emit
  GL calls as event sequences.
- **Game step** (`updateFrame`, and the clamp of `mouseCallback`): a pure
  function from the game state, the two mouse buttons, the time delta, the
  keyframe timeline and the options to the next state, the sound commands
  issued, and the node poses written back. It covers edge detection, the
  Idle / Running / Paused / Lost flag machine, the forward keyframe scan,
  piecewise ball height, wall clamp-and-reflect, autoplay and the paddle loss
  test.
- **Text mesh** (`generateTextGeometryBuffer`): a loop that builds 4 vertices,
  6 indices and 4 texture coordinates per character.

Modules: `Base` (Option, vectors, byte), `SceneGraph`, `Transforms`,
`RenderWalk`, `Input`, `KeyFrames`, `PlayField`, `GameLogic`, `GlFont`.

Modelling choices worth knowing:

- Floating point is modelled as `real`. Integer widths are modelled as `int`/`nat`.
- The cached world and normal matrices are not node fields. The propagation pass
  returns an annotated copy of the tree (`Placed`). In it, a normal matrix of
  `None` means the pass did not write it: GEOMETRY_2D and light nodes keep a
  stale value, because `src/gamelogic.cpp:433-443` has no case for GEOMETRY_2D.
- Fields the C++ constructor leaves uninitialised (the three texture ids and
  `lightColor`) are `None` in a fresh node.
- `keyFrameTimeStamps` and `keyFrameDirections` live in `timestamps.h`, which
  is not part of this model. The timeline is a parameter: one sequence of
  (timestamp, action) pairs with strictly increasing timestamps.
- The program reads `boxNode->position` at the top of `updateFrame`. That value
  was written at the end of the previous frame, so the state carries it as
  `boxPosition`. It is the origin before the first frame, so the very first
  frame uses different wall bounds from every later frame.
- Text is a sequence of bytes. `char` is taken as signed, so bytes 128..255
  give negative map columns.

Program behaviour worth knowing:

- The game starts while the left button is *held* in Idle (`mouseLeftPressed`
  is true on every frame the button is down), not on a press edge.
- Recovery from Lost does not reset the game to its initial values. The
  recovery frame advances the total clock, as every frame after the start does
  (`src/gamelogic.cpp:263`), clears `hasLost` and `hasStarted`, and rewinds both
  keyframe indices. The ball's direction, the game clock and `isPaused` keep
  their values. The next frame is an Idle frame, which places the ball back over
  the paddle (`src/gamelogic.cpp:257-259`).
- The keyframe lookup reads the entry after the resolved one; the program's
  comment at `src/gamelogic.cpp:310` says it assumes a last keyframe at
  infinity. `.at` throws `std::out_of_range` when that entry does not exist, and the
  model returns `KeyFrameOutOfRange` there.
- One frame can both pause and lose: the right-button release is handled
  before the loss test in the running branch. The game is then lost with
  `isPaused` set. Recovery leaves `isPaused` alone, so the next game starts
  paused. `LostStep` and `RunningStep` state this.
- The elapsed fraction of the keyframe interval (`src/gamelogic.cpp:314`) is
  negative while the game clock is still below the resolved keyframe's
  timestamp. That happens on the first frames after a start when the first
  timestamp is positive, and the ball's height then leaves
  [`bottomY`, `topY`]. The model computes the same value;
  `FractionInUnitInterval` and `HeightWithinTravel` state the range only
  for a reached keyframe, or a fraction in [0, 1].

## Model

| member | source | states |
|---|---|---|
| SceneGraph.CreateSceneNode | src/sceneGraph.hpp:27-44 | a fresh node has zero position, rotation and reference point, unit scale, VAO id -1, index count 0, light index -1, kind GEOMETRY, no children |
| SceneGraph.DefaultNodeUnique | src/sceneGraph.cpp:3-5 | every field the constructor sets is fixed and the ones it leaves unset are None, so within the model every created node equals every other default node |
| SceneGraph.CreateLightSceneNode | src/sceneGraph.cpp:7-14 | a light is a POINT_LIGHT whose index is the counter before the call; the counter grows by one; every other field is the default |
| SceneGraph.CreateLightsSequential | src/sceneGraph.cpp:7-14 | n lights created in a row from counter c get indices c .. c+n-1, all point lights, pairwise distinct |
| SceneGraph.AddChild | src/sceneGraph.cpp:17-19 | the child list becomes the old list followed by the child; no other field changes |
| SceneGraph.TotalChildrenCountsDescendants | src/sceneGraph.cpp:21-27 | totalChildren equals the size of the pre-order listing minus the node itself, i.e. the number of proper descendants |
| SceneGraph.LeafHasNoDescendants | src/sceneGraph.cpp:21-27 | a leaf has totalChildren 0 |
| SceneGraph.AddChildCount | src/sceneGraph.cpp:17-27 | after addChild(p, c), totalChildren(p) grows by exactly 1 + totalChildren(c) |
| SceneGraph.ChainCount | src/sceneGraph.cpp:21-27 | a chain of depth k has k descendants |
| Transforms.UpdateNodeTransformations | src/gamelogic.cpp:423-449 | the annotated tree has the same node and the same number of children; a normal matrix is written exactly for GEOMETRY and NORMAL_MAPPED_GEOMETRY |
| Transforms.LocalFactors | src/gamelogic.cpp:425-429 | the local transform's seven factors, leftmost first: translate to the position, translate by the reference point, rotate by rotation.y about Y, rotation.x about X, rotation.z about Z, scale by the node's scale, translate back by the negated reference point |
| Transforms.LocalTransformGroupsFromLeft | src/gamelogic.cpp:425-429 | the factor product equals the chain of operator* as written, grouped from the left |
| Transforms.LocalTransformReadsPose | src/gamelogic.cpp:425-429 | the local transform depends only on position, rotation, scale and reference point |
| Transforms.PassIsConsistent | src/gamelogic.cpp:423-449 | an annotation is consistent (each world = parent world times local, normal matrix from own world for geometry kinds only) if and only if it is the pass's result |
| Transforms.WorldAlongPath | src/gamelogic.cpp:431-448 | every node reachable by a child path is annotated, and its world transform is the left-to-right product of the local transforms along that path |
| RenderWalk.WalkIsPreOrder | src/gamelogic.cpp:498-501 | the recursive walk emits the per-node outputs of the pre-order listing, concatenated in order |
| RenderWalk.NodeEvents | src/gamelogic.cpp:453-496 | every node sets its model and normal uniforms first; light nodes set nothing else; geometry kinds then set is2D iff GEOMETRY_2D, useNM iff NORMAL_MAPPED_GEOMETRY, and VP_2D for 2D geometry and VP otherwise; after those only texture bindings follow, and then, for a node with a vertex array, the draw call as the very last event; a node without one issues no draw |
| RenderWalk.NodeTextureBindings | src/gamelogic.cpp:468-486 | normal-mapped geometry binds its texture, normal map and roughness map to units 0, 1, 2; 2D geometry binds its texture to unit 0; plain geometry and lights bind nothing |
| RenderWalk.RenderNode | src/gamelogic.cpp:451-502 | renderNode emits every node's calls, each node before its children and children in list order |
| RenderWalk.NodeDraws | src/gamelogic.cpp:456-496 | one node issues a draw call iff it is a geometry kind with VAO id not -1, and then exactly one with its VAO and index count |
| RenderWalk.RenderDrawsDrawableNodes | src/gamelogic.cpp:451-502 | the draw calls of renderNode are exactly one per drawable node, in pre-order; lights and VAO-less nodes draw nothing |
| RenderWalk.UpdateLightsInShader | src/gamelogic.cpp:504-522 | updateLightsInShader pushes position and colour, keyed by light index, for every POINT_LIGHT in pre-order and for nothing else |
| RenderWalk.FlattenMatchesPreOrder | src/gamelogic.cpp:445-448 | the annotated tree lists the scene's nodes in the scene graph's own pre-order, so every node is visited once |
| Input.Poll | src/gamelogic.cpp:219-238 | pressed and released are never both true; pressed iff down; released iff the button was pressed and is now up |
| Input.ReleasedOnFirstUpFrame | src/gamelogic.cpp:219-238 | over any series of frames, released holds exactly on the first up frame after a down frame |
| Input.Clamp01 | src/gamelogic.cpp:95-102 | the result is in [0, 1], equal to the input when that is already in range, 1 above and 0 below |
| Input.MouseMove | src/gamelogic.cpp:89-102 | both paddle axes end in [0, 1]; an unclamped move is the sensitivity-scaled, window-normalised displacement subtracted from the axis; a move past 1 ends at exactly 1 and one below 0 at exactly 0 |
| Input.ClampIdempotentMonotone | src/gamelogic.cpp:95-102 | clamping twice is clamping once, and clamping preserves order |
| KeyFrames.ScanFrom | src/gamelogic.cpp:297-304 | the loop ends on the last index at or after its start whose timestamp is not after t, or leaves the index unchanged when there is none |
| KeyFrames.ScanKeyFrames | src/gamelogic.cpp:297-304 | the resolved index never rewinds and is either unchanged or a reached keyframe |
| KeyFrames.ScanFindsLastReached | src/gamelogic.cpp:297-304 | on a strictly increasing timeline, once the current keyframe is reached, a keyframe is reached iff its index is at most the result |
| KeyFrames.ScanMonotoneInTime | src/gamelogic.cpp:297-304 | a later time never resolves to an earlier keyframe |
| KeyFrames.ScanComposes | src/gamelogic.cpp:297-304 | scanning at t1 and then at t2 >= t1 equals one scan at t2: frame-by-frame resolution loses nothing |
| KeyFrames.BallHeight | src/gamelogic.cpp:321-337 | BOTTOM to BOTTOM gives the bottom height, TOP to TOP the top; a rise climbs travel times fraction from the bottom, a fall descends travel times fraction from the top |
| KeyFrames.HeightAtEndpoints | src/gamelogic.cpp:321-337 | at fraction 0 the height is the origin's, at fraction 1 the destination's |
| KeyFrames.HeightWithinTravel | src/gamelogic.cpp:321-337 | for a fraction in [0, 1] the height lies between the bottom and top heights |
| PlayField.BallBounds | src/gamelogic.cpp:208-217 | the bounds are non-empty and X is centred on the box; the X and Z walls lie inside the box, the near Z wall a further camera clearance inside; the lowest ball rests on top of the paddle on the box floor and the highest touches the box ceiling |
| PlayField.BounceAxis | src/gamelogic.cpp:345-365 | the position ends within [min, max]; an in-range position and direction are unchanged; below min the ball is put on min, above max on max, and in both cases the direction is negated |
| PlayField.BounceSettles | src/gamelogic.cpp:345-365 | bouncing an already bounced axis changes nothing |
| PlayField.IdleBallX | src/gamelogic.cpp:257 | axis 1 puts the waiting ball at the minimum X bound, axis 0 at the maximum, and an axis in [0, 1] keeps it within the X bounds |
| PlayField.IdleBallZ | src/gamelogic.cpp:259 | axis 1 puts the waiting ball at the minimum Z bound, axis 0 at the maximum plus the camera wall offset, and an axis in [0, 1] keeps it in between |
| PlayField.AutoPadX | src/gamelogic.cpp:369 | a ball on the minimum X bound gives axis 1, on the maximum axis 0 |
| PlayField.AutoPadZ | src/gamelogic.cpp:370 | a ball on the minimum Z bound gives axis 1, on the maximum plus the camera wall offset axis 0 |
| PlayField.AutoplayInvertsIdlePlacement | src/gamelogic.cpp:367-371 | the autoplay mapping and the idle ball placement of lines 257-259 are inverse to each other, in both directions, on both axes |
| PlayField.AutoplayStaysInRange | src/gamelogic.cpp:367-371 | autoplay paddle axes are in [0, 1] exactly when the ball is within its placement range |
| PlayField.PadFootprint | src/gamelogic.cpp:377-382 | the footprint is 30 wide in X and 40 deep in Z |
| PlayField.FootprintInsideBox | src/gamelogic.cpp:377-382 | with axes in [0, 1] the paddle lies on the box floor |
| PlayField.PadNodePosition | src/gamelogic.cpp:414-418 | the paddle node is centred on the footprint the loss test uses and rests on the floor |
| PlayField.OffPadMeansAwayFromPadCentre | src/gamelogic.cpp:377-385 | the loss test's off-paddle condition holds iff the ball's centre is more than 15 from the drawn paddle's centre in X or more than 20 in Z |
| PlayField.AutoplayKeepsBallOnPad | src/gamelogic.cpp:367-394 | under autoplay a ball within its bounds is always over the paddle |
| PlayField.IdleBallOverPad | src/gamelogic.cpp:257-259 | with paddle axes in [0, 1] the waiting ball is never off the paddle, including Z positions beyond maxZ that only the idle placement reaches |
| PlayField.CentredPaddleCoversCentredBall | src/gamelogic.cpp:375-394 | paddle axes (0.5, 0.5) cover a ball at the centre of its range, so no loss |
| GameLogic.IdleStep | src/gamelogic.cpp:240-260 | starts iff the left button is held, then resets both clocks to the start time and starts music; always places the ball at the idle placement for the paddle axes at the bottom height, which is over the paddle when the axes are in [0, 1]; nothing else changes |
| GameLogic.LostStep | src/gamelogic.cpp:263-273 | only the total clock advances; a left release clears hasLost and hasStarted and both keyframe indices, leaving isPaused and the ball untouched |
| GameLogic.PausedStep | src/gamelogic.cpp:263-284 | only the total clock advances; a right release unpauses and resumes the music; nothing else changes |
| GameLogic.RunningStep | src/gamelogic.cpp:285-395 | fails iff the resolved keyframe has no successor; otherwise both clocks advance, the pause follows a right release, the index never rewinds, the jump flag says whether it moved, the ball stays within the walls, a ball past a wall is put on that wall, each direction component is flipped iff clamped, direction Y is kept, autoplay drives the paddle, and the game is lost iff a jump into a Bottom-to-Top interval finds the ball off the paddle |
| GameLogic.Poses | src/gamelogic.cpp:407-418 | the box moves to its rest position; the ball node is placed at the ball position with scale 3 and rotation (0, twice the total time, 0); the paddle node sits at the paddle position |
| GameLogic.UpdateFrame | src/gamelogic.cpp:202-421 | only a running frame can fail; a completed frame polls both buttons, keeps direction Y, moves the box to rest, advances the total clock whenever started and the game clock only while running |
| GameLogic.FractionInUnitInterval | src/gamelogic.cpp:309-314 | once the resolved keyframe is reached, the elapsed fraction of its interval lies in [0, 1) |
| GameLogic.InitialState | src/gamelogic.cpp:31-78 | the program starts in Idle, not lost, unpaused, with no button seen, both clocks at the start time, keyframe indices 0, paddle axes 0, the ball at (0, ballRadius + pad height, boxDimensions.z / 2) moving along (1, 1, 0.2), and the box node still at the origin |
| GameLogic.InitialStateSatisfiesInv | src/gamelogic.cpp:31-78 | the initial globals satisfy the invariant and are in Idle |
| GameLogic.UpdateFramePreservesInv | src/gamelogic.cpp:202-396 | with a non-negative time delta every completed frame keeps paddle axes in [0, 1], previous index equal to current, no loss without a start, and the game clock not ahead of the total clock |
| GameLogic.MouseMovePreservesInv | src/gamelogic.cpp:83-105 | pointer motion keeps the invariant |
| GameLogic.JumpIffIndexChanged | src/gamelogic.cpp:297-307 | in a reachable running state the jump flag is true iff the keyframe index changed, and the index only moves forward |
| GameLogic.AutoplayNeverLoses | src/gamelogic.cpp:367-394 | with autoplay on, a frame never turns a game into a lost one |
| GameLogic.LossCondition | src/gamelogic.cpp:375-394 | a running frame loses iff it jumped into a Bottom-to-Top interval with the ball off the paddle; with music on the sound is stopped and released exactly once, as the last command |
| GameLogic.StartFromIdle | src/gamelogic.cpp:240-255 | holding the left button in Idle starts the game with both clocks at the start time and music started there |
| GameLogic.PauseFreezesGameClock | src/gamelogic.cpp:263-295 | running: both clocks advance and a right release pauses; paused: the game clock stands still, the total clock runs and a right release resumes |
| GameLogic.RecoverFromLoss | src/gamelogic.cpp:264-273 | a left release while lost returns to Idle with both indices 0, isPaused and the ball untouched, and no sound commands |
| GlFont.GenerateTextGeometryBuffer | src/utilities/glfont.cpp:4-52 | 4n vertices, 6n indices, 4n texture coordinates; indices follow 4i + (0,1,2,0,2,3) and all point at existing vertices; vertex and texture corners follow the same corner order |
| GlFont.CharCode | src/utilities/glfont.cpp:38-39 | a text byte reads as a signed char in [-128, 128), congruent to the byte modulo 256 |
| GlFont.IndexStaysInQuad | src/utilities/glfont.cpp:31-36 | every index of character i points at one of the vertices 4i .. 4i+3 |
| GlFont.QuadTrianglesCoverCorners | src/utilities/glfont.cpp:31-36 | the two triangles of a quad are corners {0,1,2} and {0,2,3} |
| GlFont.VertexWithinQuad | src/utilities/glfont.cpp:6-29 | vertex j lies on quad i = j/4: x in [i w, (i+1) w], y in [0, h], z = 0 |
| GlFont.UVWithinCharacterColumn | src/utilities/glfont.cpp:38-48 | u lies in the character's column [c/128, (c+1)/128], v is 0 or 1, and a 7-bit character stays inside the map |

## Left out

- GL, GLFW and SFML plumbing: `initGame`, `genTexture`, `renderFrame` set-up, shader loading and `glutils.cpp` buffer creation. These are I/O and foreign calls.
- Camera maths (`src/gamelogic.cpp:398-405`): perspective, exponential and rotation in floating point.
- Matrix contents: `MatrixOps` leaves products, rotations and the inverse-transpose uninterpreted.
- Sound calls: they appear only as `AudioCommand` values gated by `enableMusic`. The startup abort when the clip cannot be loaded is not modelled.
- `getTimeDeltaSeconds`, cursor re-centring and window-size queries: the time delta, button states and pointer displacement are inputs.
- `printNode`: writes to stdout only.
- Float rounding and float/double narrowing: all arithmetic is over `real`.
- 32-bit widths are unbounded: overflow of `lightsCount`, `unsigned int` index counts and the `unsigned` mesh sizes is not modelled.
- Pointer aliasing and shared or cyclic children: nodes are values, so every scene is a proper tree.
- Transforms.PassIsConsistent: "the root's world transform equals its local transform" is not stated, because matrix identity laws are not modelled.
- Input.MouseMove: requires a positive window size. The infinities and NaN that a zero-size window would produce in double arithmetic are not modelled.
- GameLogic.RunningStep: requires strictly increasing timestamps, because the keyframe interval length is a divisor. Behaviour on out-of-order data is not modelled.
- GameLogic.UpdateFrame: the camera look rotation and tilt it derives each frame are not part of the returned poses.

=== FILE: base.dfy ===
/** Small value types shared by the scene graph, the game step and the text mesh. */
module Base {

  /** A value that may be absent. In the scene node it stands for a C++ field
      the constructor never initialises: reading it yields an indeterminate value. */
  datatype Option<+T> = None | Some(value: T)

  /** A three-component vector of reals (glm::vec3, without float rounding). */
  datatype Vec3 = Vec3(x: real, y: real, z: real)

  /** A two-component vector of reals (glm::vec2). */
  datatype Vec2 = Vec2(u: real, v: real)

  function Neg(a: Vec3): (r: Vec3)
    ensures r.x + a.x == 0.0 && r.y + a.y == 0.0 && r.z + a.z == 0.0
  {
    Vec3(-a.x, -a.y, -a.z)
  }

  /** An unsigned 8-bit byte, the unit of a std::string. */
  type byte = b: int | 0 <= b < 256
}

=== FILE: game_logic.dfy ===
/** The per-frame game step (updateFrame): edge detection of the two mouse
    buttons, the Idle / Running / Paused / Lost flag machine, the keyframe
    scan and ball height, ball movement with wall bounces, autoplay, the loss
    test, the audio commands it issues and the node poses it writes back.

    The program's globals become one GameState value; the frame's button states,
    time delta, keyframe timeline and options are inputs. */
module GameLogic {
  import opened Base
  import opened Input
  import opened KeyFrames
  import opened PlayField

  /** Where the music starts and both clocks restart, in seconds. */
  const StartTime: real := 0.0

  datatype Options = Options(enableMusic: bool, enableAutoplay: bool)

  /** The calls on the sound object, issued only when music is enabled:
      StartAt creates a sound, sets its offset and plays it; Resume is play;
      StopAndRelease is stop followed by delete. */
  datatype AudioCommand = StartAt(offset: real) | Resume | Pause | StopAndRelease

  datatype GameState = GameState(
    hasStarted: bool,
    hasLost: bool,
    isPaused: bool,
    jumpedToNextFrame: bool,
    left: ButtonState,
    right: ButtonState,
    totalElapsedTime: real,
    gameElapsedTime: real,
    ballPosition: Vec3,
    ballDirection: Vec3,
    padPositionX: real,
    padPositionZ: real,
    currentKeyFrame: nat,
    previousKeyFrame: nat,
    /** the box node's position as updateFrame reads it: the value written at
        the end of the previous frame, the origin before the first frame */
    boxPosition: Vec3)

  /** The values of the globals when the program starts: waiting in Idle with
      no button seen, both clocks at the start time, the first keyframe, and
      the paddle axes at 0, the far corner of their range. */
  function InitialState(): (s: GameState)
    ensures ModeOf(s) == Idle && !s.hasLost && !s.isPaused && !s.jumpedToNextFrame
    ensures s.left == Untouched && s.right == Untouched
    ensures s.totalElapsedTime == s.gameElapsedTime == StartTime
    ensures s.currentKeyFrame == s.previousKeyFrame == 0
    ensures s.padPositionX == 0.0 && s.padPositionZ == 0.0
    ensures s.ballPosition == Vec3(0.0, BallRadius + PadDimensions.y, BoxDimensions.z / 2.0)
    ensures s.ballDirection == Vec3(1.0, 1.0, 0.2)
    ensures s.boxPosition == Vec3(0.0, 0.0, 0.0)
  {
    GameState(
      false, false, false, false, Untouched, Untouched, StartTime, StartTime,
      Vec3(0.0, BallRadius + PadDimensions.y, BoxDimensions.z / 2.0), Vec3(1.0, 1.0, 0.2),
      0.0, 0.0, 0, 0, Vec3(0.0, 0.0, 0.0))
  }

  /** The mode the flags encode. */
  datatype Mode = Idle | Running | Paused | Lost

  function ModeOf(s: GameState): Mode {
    if !s.hasStarted then Idle
    else if s.hasLost then Lost
    else if s.isPaused then Paused
    else Running
  }

  /** The scene-node fields updateFrame writes after the state step. */
  datatype NodePoses = NodePoses(box: Vec3, ball: Vec3, ballScale: Vec3, ballRotation: Vec3, pad: Vec3)

  /** A state step and the audio commands it issued, in order. */
  datatype Branch = Branch(state: GameState, audio: seq<AudioCommand>)

  /** A whole frame: the next state, its audio commands and the node poses. */
  datatype Frame = Frame(state: GameState, audio: seq<AudioCommand>, poses: NodePoses)

  /** keyFrameTimeStamps.at / keyFrameDirections.at throw std::out_of_range when
      the resolved keyframe is the last one (or beyond): the program ends there. */
  datatype StepResult<T> = Ok(value: T) | KeyFrameOutOfRange(index: nat)

  /** A sound call, issued only when music is enabled. */
  function MusicOnly(opts: Options, c: AudioCommand): seq<AudioCommand> {
    if opts.enableMusic then [c] else []
  }

  /** Not started: a held left button starts the game (music from StartTime,
      both clocks reset), and in every case the ball is placed over the paddle. */
  function IdleStep(s: GameState, opts: Options): (r: Branch)
    requires !s.hasStarted
    ensures r.state.hasStarted <==> s.left.pressed
    ensures s.left.pressed ==> r.state.totalElapsedTime == StartTime && r.state.gameElapsedTime == StartTime
    ensures !s.left.pressed ==> (r.state.totalElapsedTime == s.totalElapsedTime
                                 && r.state.gameElapsedTime == s.gameElapsedTime && r.audio == [])
    ensures s.left.pressed ==> r.audio == (if opts.enableMusic then [StartAt(StartTime)] else [])
    ensures r.state.ballPosition.y == BallBounds(s.boxPosition).bottomY
    ensures r.state.ballPosition == Vec3(IdleBallX(s.padPositionX, s.boxPosition),
                                         BallBounds(s.boxPosition).bottomY,
                                         IdleBallZ(s.padPositionZ, s.boxPosition))
    ensures 0.0 <= s.padPositionX <= 1.0 && 0.0 <= s.padPositionZ <= 1.0 ==>
              !OffPad(r.state.ballPosition, PadFootprint(s.boxPosition, s.padPositionX, s.padPositionZ))
    ensures r.state.(hasStarted := s.hasStarted, totalElapsedTime := s.totalElapsedTime,
                     gameElapsedTime := s.gameElapsedTime, ballPosition := s.ballPosition) == s
  {
    var started :=
      if s.left.pressed then
        Branch(s.(totalElapsedTime := StartTime, gameElapsedTime := StartTime, hasStarted := true),
               MusicOnly(opts, StartAt(StartTime)))
      else Branch(s, []);
    var b := BallBounds(s.boxPosition);
    IdleBallOverPad(s.padPositionX, s.padPositionZ, s.boxPosition, b.bottomY);
    started.(state := started.state.(ballPosition :=
      Vec3(IdleBallX(s.padPositionX, s.boxPosition), b.bottomY, IdleBallZ(s.padPositionZ, s.boxPosition))))
  }

  /** Lost: only the total clock runs; a left release returns to Idle and rewinds
      both keyframe indices, leaving the pause flag and the ball as they are. */
  function LostStep(s: GameState, dt: real): (r: Branch)
    requires s.hasStarted && s.hasLost
    ensures r.audio == []
    ensures r.state.totalElapsedTime == s.totalElapsedTime + dt
    ensures s.left.released ==> (!r.state.hasLost && !r.state.hasStarted
                                 && r.state.currentKeyFrame == 0 && r.state.previousKeyFrame == 0)
    ensures !s.left.released ==> r.state == s.(totalElapsedTime := s.totalElapsedTime + dt)
    ensures r.state.(hasLost := s.hasLost, hasStarted := s.hasStarted, currentKeyFrame := s.currentKeyFrame,
                     previousKeyFrame := s.previousKeyFrame, totalElapsedTime := s.totalElapsedTime) == s
  {
    var s1 := s.(totalElapsedTime := s.totalElapsedTime + dt);
    if s.left.released then
      Branch(s1.(hasLost := false, hasStarted := false, currentKeyFrame := 0, previousKeyFrame := 0), [])
    else Branch(s1, [])
  }

  /** Paused: only the total clock runs; a right release resumes play and music. */
  function PausedStep(s: GameState, dt: real, opts: Options): (r: Branch)
    requires s.hasStarted && !s.hasLost && s.isPaused
    ensures r.state.totalElapsedTime == s.totalElapsedTime + dt
    ensures r.state.isPaused <==> !s.right.released
    ensures r.audio == (if s.right.released && opts.enableMusic then [Resume] else [])
    ensures r.state.(isPaused := true, totalElapsedTime := s.totalElapsedTime) == s
  {
    var s1 := s.(totalElapsedTime := s.totalElapsedTime + dt);
    if s.right.released then Branch(s1.(isPaused := false), MusicOnly(opts, Resume))
    else Branch(s1, [])
  }

  /** The index the keyframe lookups fail on: the resolved index itself when it
      is past the end, else the one after it. */
  function FailingIndex(tl: seq<KeyFrame>, cur: nat): nat {
    if cur < |tl| then cur + 1 else cur
  }

  /** The fraction of keyframe interval cur that has elapsed at time t. */
  function FrameFraction(tl: seq<KeyFrame>, cur: nat, t: real): real
    requires StrictlyIncreasing(tl) && cur + 1 < |tl|
  {
    var frameStart := tl[cur].timestamp;
    var frameEnd := tl[cur + 1].timestamp;
    (t - frameStart) / (frameEnd - frameStart)
  }

  /** Once the resolved keyframe has been reached, the fraction lies in [0, 1):
      the scan stops before the next keyframe. Together with HeightWithinTravel
      the ball then stays between its bottom and top heights. */
  lemma FractionInUnitInterval(tl: seq<KeyFrame>, cur: nat, t: real)
    requires StrictlyIncreasing(tl)
    requires cur < |tl| && tl[cur].timestamp <= t
    requires ScanKeyFrames(tl, cur, t) + 1 < |tl|
    ensures var r := ScanKeyFrames(tl, cur, t);
      0.0 <= FrameFraction(tl, r, t) < 1.0
  {
    var r := ScanKeyFrames(tl, cur, t);
    ScanFindsLastReached(tl, cur, t);
    var d := tl[r + 1].timestamp - tl[r].timestamp;
    var e := t - tl[r].timestamp;
    assert 0.0 <= e < d;
    assert FrameFraction(tl, r, t) == e / d;
    DivisionBelowOne(e, d);
  }

  lemma DivisionBelowOne(e: real, d: real)
    requires 0.0 <= e < d
    ensures 0.0 <= e / d < 1.0
  {
    assert e / d * d == e;
  }

  /** Running: both clocks advance; a right release pauses (this frame still
      runs to completion); the keyframe is resolved; the ball height follows the
      keyframe interval; the ball moves, bounces off the walls, autoplay moves the
      paddle, and on a jump into a rising interval a ball off the paddle loses. */
  function RunningStep(s: GameState, dt: real, tl: seq<KeyFrame>, opts: Options): (r: StepResult<Branch>)
    requires StrictlyIncreasing(tl)
    requires s.hasStarted && !s.hasLost && !s.isPaused
    ensures var cur := ScanKeyFrames(tl, s.currentKeyFrame, s.gameElapsedTime + dt);
      r.KeyFrameOutOfRange? <==> cur + 1 >= |tl|
    ensures r.Ok? ==> RunningPost(s, dt, tl, opts, r.value)
  {
    var game := s.gameElapsedTime + dt;
    var pauseAudio := if s.right.released then MusicOnly(opts, Pause) else [];
    var cur := ScanKeyFrames(tl, s.currentKeyFrame, game);
    var jumped := cur != s.previousKeyFrame;
    if cur + 1 >= |tl| then KeyFrameOutOfRange(FailingIndex(tl, cur))
    else
      var box := s.boxPosition;
      var b := BallBounds(box);
      var fraction := FrameFraction(tl, cur, game);
      var origin := tl[cur].action;
      var destination := tl[cur + 1].action;
      var y := BallHeight(origin, destination, b.bottomY, b.topY - b.bottomY, fraction);
      var (x, dx) := BounceAxis(s.ballPosition.x + dt * BallSpeed * s.ballDirection.x, s.ballDirection.x, b.minX, b.maxX);
      var (z, dz) := BounceAxis(s.ballPosition.z + dt * BallSpeed * s.ballDirection.z, s.ballDirection.z, b.minZ, b.maxZ);
      var ball := Vec3(x, y, z);
      var padX := if opts.enableAutoplay then AutoPadX(x, box) else s.padPositionX;
      var padZ := if opts.enableAutoplay then AutoPadZ(z, box) else s.padPositionZ;
      var lost := jumped && origin == Bottom && destination == Top && OffPad(ball, PadFootprint(box, padX, padZ));
      Ok(Branch(
        s.(totalElapsedTime := s.totalElapsedTime + dt, gameElapsedTime := game, isPaused := s.right.released,
           currentKeyFrame := cur, previousKeyFrame := cur, jumpedToNextFrame := jumped,
           ballPosition := ball, ballDirection := Vec3(dx, s.ballDirection.y, dz),
           padPositionX := padX, padPositionZ := padZ, hasLost := lost),
        pauseAudio + (if lost then MusicOnly(opts, StopAndRelease) else [])))
  }

  /** What a completed running frame guarantees. */
  ghost predicate RunningPost(s: GameState, dt: real, tl: seq<KeyFrame>, opts: Options, r: Branch)
    requires StrictlyIncreasing(tl)
  {
    var t := r.state;
    var b := BallBounds(s.boxPosition);
    var cur := t.currentKeyFrame;
    && t.totalElapsedTime == s.totalElapsedTime + dt
    && t.gameElapsedTime == s.gameElapsedTime + dt
    && t.isPaused == s.right.released
    && t.hasStarted
    // the keyframe index never rewinds and lands on a reached keyframe, or stays
    && cur >= s.currentKeyFrame
    && cur + 1 < |tl|
    && cur == ScanKeyFrames(tl, s.currentKeyFrame, t.gameElapsedTime)
    && t.previousKeyFrame == cur
    && (t.jumpedToNextFrame <==> cur != s.previousKeyFrame)
    // ball height follows the interval, position stays within the walls
    && t.ballPosition.y == BallHeight(tl[cur].action, tl[cur + 1].action, b.bottomY, b.topY - b.bottomY,
                                      FrameFraction(tl, cur, t.gameElapsedTime))
    && b.minX <= t.ballPosition.x <= b.maxX
    && b.minZ <= t.ballPosition.z <= b.maxZ
    // each axis bounces: a ball past a wall is put on that wall and its direction component flips
    && (var x0 := s.ballPosition.x + dt * BallSpeed * s.ballDirection.x;
        var z0 := s.ballPosition.z + dt * BallSpeed * s.ballDirection.z;
        && BounceOutcome(x0, s.ballDirection.x, b.minX, b.maxX, t.ballPosition.x, t.ballDirection.x)
        && BounceOutcome(z0, s.ballDirection.z, b.minZ, b.maxZ, t.ballPosition.z, t.ballDirection.z))
    && t.ballDirection.y == s.ballDirection.y
    // autoplay drives the paddle, otherwise the paddle is untouched
    && (opts.enableAutoplay ==> (t.padPositionX == AutoPadX(t.ballPosition.x, s.boxPosition)
                                 && t.padPositionZ == AutoPadZ(t.ballPosition.z, s.boxPosition)))
    && (!opts.enableAutoplay ==> t.padPositionX == s.padPositionX && t.padPositionZ == s.padPositionZ)
    // losing: only on a jump into a Bottom->Top interval with the ball off the paddle
    && (t.hasLost <==> t.jumpedToNextFrame && tl[cur].action == Bottom && tl[cur + 1].action == Top
                       && OffPad(t.ballPosition, PadFootprint(s.boxPosition, t.padPositionX, t.padPositionZ)))
    && r.audio == (if s.right.released && opts.enableMusic then [Pause] else [])
                  + (if t.hasLost && opts.enableMusic then [StopAndRelease] else [])
    && t.left == s.left && t.right == s.right && t.boxPosition == s.boxPosition
  }

  /** The node poses written at the end of the frame, from the stepped state. */
  function Poses(t: GameState): (p: NodePoses)
    ensures p.box == BoxRestPosition
    ensures p.ballScale == Vec3(BallRadius, BallRadius, BallRadius)
    ensures p.ball == t.ballPosition
    ensures p.ballRotation == Vec3(0.0, 2.0 * t.totalElapsedTime, 0.0)
    ensures p.pad == PadNodePosition(BoxRestPosition, t.padPositionX, t.padPositionZ)
  {
    NodePoses(BoxRestPosition, t.ballPosition, Vec3(BallRadius, BallRadius, BallRadius),
              Vec3(0.0, t.totalElapsedTime * 2.0, 0.0),
              PadNodePosition(BoxRestPosition, t.padPositionX, t.padPositionZ))
  }

  /** updateFrame: poll both buttons, step the mode the flags select, then write
      the node poses and move the box to its rest position. */
  function UpdateFrame(s: GameState, leftDown: bool, rightDown: bool, dt: real,
                       tl: seq<KeyFrame>, opts: Options): (r: StepResult<Frame>)
    requires StrictlyIncreasing(tl)
    ensures r.KeyFrameOutOfRange? ==> ModeOf(s) == Running
    ensures r.Ok? ==> r.value.state.left == Poll(s.left, leftDown) && r.value.state.right == Poll(s.right, rightDown)
    ensures r.Ok? ==> r.value.state.boxPosition == BoxRestPosition && r.value.poses == Poses(r.value.state)
    ensures r.Ok? ==> r.value.state.ballDirection.y == s.ballDirection.y
    ensures r.Ok? && ModeOf(s) != Idle ==> r.value.state.totalElapsedTime == s.totalElapsedTime + dt
    ensures r.Ok? && ModeOf(s) != Running ==> r.value.state.gameElapsedTime == s.gameElapsedTime
                                              || (ModeOf(s) == Idle && r.value.state.gameElapsedTime == StartTime)
  {
    var polled := s.(left := Poll(s.left, leftDown), right := Poll(s.right, rightDown));
    var stepped :=
      if !s.hasStarted then Ok(IdleStep(polled, opts))
      else if s.hasLost then Ok(LostStep(polled, dt))
      else if s.isPaused then Ok(PausedStep(polled, dt, opts))
      else RunningStep(polled, dt, tl, opts);
    match stepped
    case KeyFrameOutOfRange(i) => KeyFrameOutOfRange(i)
    case Ok(branch) =>
      var t := branch.state.(boxPosition := BoxRestPosition);
      Ok(Frame(t, branch.audio, Poses(t)))
  }

  /** What every state reachable from InitialState satisfies: paddle axes in
      [0, 1], the previous keyframe index equal to the current one, no loss
      without a start, the game clock never ahead of the total clock, and no
      button both pressed and released. */
  ghost predicate Inv(s: GameState) {
    && 0.0 <= s.padPositionX <= 1.0 && 0.0 <= s.padPositionZ <= 1.0
    && s.previousKeyFrame == s.currentKeyFrame
    && (s.hasLost ==> s.hasStarted)
    && s.gameElapsedTime <= s.totalElapsedTime
    && !(s.left.pressed && s.left.released)
    && !(s.right.pressed && s.right.released)
  }

  lemma InitialStateSatisfiesInv()
    ensures Inv(InitialState()) && ModeOf(InitialState()) == Idle
  {
  }

  /** Every completed frame with a non-negative time delta keeps the invariant. */
  lemma UpdateFramePreservesInv(s: GameState, leftDown: bool, rightDown: bool, dt: real,
                                tl: seq<KeyFrame>, opts: Options)
    requires StrictlyIncreasing(tl) && Inv(s) && dt >= 0.0
    requires UpdateFrame(s, leftDown, rightDown, dt, tl, opts).Ok?
    ensures Inv(UpdateFrame(s, leftDown, rightDown, dt, tl, opts).value.state)
  {
    var polled := s.(left := Poll(s.left, leftDown), right := Poll(s.right, rightDown));
    if s.hasStarted && !s.hasLost && !s.isPaused {
      var r := RunningStep(polled, dt, tl, opts);
      assert RunningPost(polled, dt, tl, opts, r.value);
      var t := r.value.state;
      if opts.enableAutoplay {
        AutoplayStaysInRange(t.ballPosition.x, t.ballPosition.z, s.boxPosition);
      }
    }
  }

  /** Pointer motion between frames keeps the invariant too. */
  lemma MouseMovePreservesInv(s: GameState, deltaX: real, deltaY: real, w: int, h: int, sensitivity: real)
    requires Inv(s) && w > 0 && h > 0
    ensures var m := MouseMove(s.padPositionX, s.padPositionZ, deltaX, deltaY, w, h, sensitivity);
      Inv(s.(padPositionX := m.0, padPositionZ := m.1))
  {
  }

  /** In a reachable state, the jump flag of a running frame says exactly whether
      the keyframe index moved, and it only ever moves forward. */
  lemma JumpIffIndexChanged(s: GameState, leftDown: bool, rightDown: bool, dt: real,
                            tl: seq<KeyFrame>, opts: Options)
    requires StrictlyIncreasing(tl) && Inv(s) && ModeOf(s) == Running
    requires UpdateFrame(s, leftDown, rightDown, dt, tl, opts).Ok?
    ensures var t := UpdateFrame(s, leftDown, rightDown, dt, tl, opts).value.state;
      (t.jumpedToNextFrame <==> t.currentKeyFrame != s.currentKeyFrame)
      && t.currentKeyFrame >= s.currentKeyFrame
  {
    var polled := s.(left := Poll(s.left, leftDown), right := Poll(s.right, rightDown));
    assert RunningPost(polled, dt, tl, opts, RunningStep(polled, dt, tl, opts).value);
  }

  /** With autoplay on, the paddle always covers the ball, so a running game is
      never lost. */
  lemma AutoplayNeverLoses(s: GameState, leftDown: bool, rightDown: bool, dt: real,
                           tl: seq<KeyFrame>, opts: Options)
    requires StrictlyIncreasing(tl) && opts.enableAutoplay && !s.hasLost
    requires UpdateFrame(s, leftDown, rightDown, dt, tl, opts).Ok?
    ensures !UpdateFrame(s, leftDown, rightDown, dt, tl, opts).value.state.hasLost
  {
    var polled := s.(left := Poll(s.left, leftDown), right := Poll(s.right, rightDown));
    if s.hasStarted && !s.isPaused {
      var r := RunningStep(polled, dt, tl, opts);
      assert RunningPost(polled, dt, tl, opts, r.value);
      AutoplayKeepsBallOnPad(r.value.state.ballPosition, s.boxPosition);
    }
  }

  /** A frame of a running game becomes lost exactly when the keyframe jumped
      into a Bottom->Top interval with the ball off the paddle; with music on,
      that frame stops and releases the sound exactly once. */
  lemma LossCondition(s: GameState, leftDown: bool, rightDown: bool, dt: real,
                      tl: seq<KeyFrame>, opts: Options)
    requires StrictlyIncreasing(tl) && ModeOf(s) == Running
    requires UpdateFrame(s, leftDown, rightDown, dt, tl, opts).Ok?
    ensures var f := UpdateFrame(s, leftDown, rightDown, dt, tl, opts).value;
      var t := f.state;
      var cur := t.currentKeyFrame;
      && cur + 1 < |tl|
      && (t.hasLost <==> t.jumpedToNextFrame && tl[cur].action == Bottom && tl[cur + 1].action == Top
                         && OffPad(t.ballPosition, PadFootprint(s.boxPosition, t.padPositionX, t.padPositionZ)))
      && (t.hasLost && opts.enableMusic ==> f.audio[|f.audio| - 1] == StopAndRelease
                                            && forall i :: 0 <= i < |f.audio| - 1 ==> f.audio[i] != StopAndRelease)
      && (!t.hasLost ==> forall i :: 0 <= i < |f.audio| ==> f.audio[i] != StopAndRelease)
  {
    var polled := s.(left := Poll(s.left, leftDown), right := Poll(s.right, rightDown));
    assert RunningPost(polled, dt, tl, opts, RunningStep(polled, dt, tl, opts).value);
  }

  /** Holding the left button while idle starts the game: both clocks restart at
      StartTime and, with music on, the music starts there. */
  lemma StartFromIdle(s: GameState, rightDown: bool, dt: real, tl: seq<KeyFrame>, opts: Options)
    requires StrictlyIncreasing(tl) && Inv(s) && ModeOf(s) == Idle
    ensures UpdateFrame(s, true, rightDown, dt, tl, opts).Ok?
    ensures var f := UpdateFrame(s, true, rightDown, dt, tl, opts).value;
      && f.state.hasStarted && !f.state.hasLost && f.state.isPaused == s.isPaused
      && f.state.totalElapsedTime == StartTime && f.state.gameElapsedTime == StartTime
      && f.audio == (if opts.enableMusic then [StartAt(StartTime)] else [])
  {
  }

  /** A right release while running pauses the game; in the paused mode the game
      clock stands still while the total clock runs on, until the next right
      release resumes play. */
  lemma PauseFreezesGameClock(s: GameState, leftDown: bool, rightDown: bool, dt: real,
                              tl: seq<KeyFrame>, opts: Options)
    requires StrictlyIncreasing(tl)
    requires ModeOf(s) == Running || ModeOf(s) == Paused
    requires UpdateFrame(s, leftDown, rightDown, dt, tl, opts).Ok?
    ensures var t := UpdateFrame(s, leftDown, rightDown, dt, tl, opts).value.state;
      var released := s.right.pressed && !rightDown;
      && t.totalElapsedTime == s.totalElapsedTime + dt
      && (ModeOf(s) == Running ==> t.gameElapsedTime == s.gameElapsedTime + dt && (t.isPaused <==> released))
      && (ModeOf(s) == Paused ==> t.gameElapsedTime == s.gameElapsedTime && (t.isPaused <==> !released))
  {
    var polled := s.(left := Poll(s.left, leftDown), right := Poll(s.right, rightDown));
    if ModeOf(s) == Running {
      assert RunningPost(polled, dt, tl, opts, RunningStep(polled, dt, tl, opts).value);
    }
  }

  /** A left release while lost returns to Idle with both keyframe indices at 0;
      the pause flag and the ball are left untouched. */
  lemma RecoverFromLoss(s: GameState, rightDown: bool, dt: real, tl: seq<KeyFrame>, opts: Options)
    requires StrictlyIncreasing(tl) && ModeOf(s) == Lost && s.left.pressed
    ensures UpdateFrame(s, false, rightDown, dt, tl, opts).Ok?
    ensures var f := UpdateFrame(s, false, rightDown, dt, tl, opts).value;
      && ModeOf(f.state) == Idle && !f.state.hasLost
      && f.state.currentKeyFrame == 0 && f.state.previousKeyFrame == 0
      && f.state.isPaused == s.isPaused
      && f.state.ballPosition == s.ballPosition && f.state.ballDirection == s.ballDirection
      && f.audio == []
  {
  }
}

=== FILE: glfont.dfy ===
/** generateTextGeometryBuffer: the quad mesh for a line of text. Character i
    is a quad of width w = totalTextWidth / length and height
    h = characterHeightOverWidth * w starting at x = i * w, made of two
    triangles, textured with column c of a 128-column character map. */
module GlFont {
  import opened Base

  datatype Mesh = Mesh(vertices: seq<Vec3>, indices: seq<nat>, textureCoordinates: seq<Vec2>)

  /** The code of a text byte as a C++ char. The model assumes a signed char:
      bytes 128..255 read as -128..-1. (Where char is unsigned they would read
      as 128..255 instead; that reading is not modelled.) */
  function CharCode(b: byte): (c: int)
    ensures -128 <= c < 128
    ensures (c - b) % 256 == 0
  {
    if b < 128 then b else b - 256
  }

  /** The six indices of a quad, relative to its first vertex: triangles
      (0, 1, 2) and (0, 2, 3). */
  const QuadIndexPattern: seq<nat> := [0, 1, 2, 0, 2, 3]

  /** The unit offsets of the four corners of a quad, in the order both the
      vertices and the texture coordinates are written:
      lower left, lower right, upper right, upper left. */
  function CornerDX(k: nat): real requires k < 4 { if k == 1 || k == 2 then 1.0 else 0.0 }
  function CornerDY(k: nat): real requires k < 4 { if k == 2 || k == 3 then 1.0 else 0.0 }

  /** The width of one character; for empty text the program divides by zero
      but never uses the value. */
  function CharacterWidth(text: seq<byte>, totalTextWidth: real): real {
    if |text| == 0 then 0.0 else totalTextWidth / (|text| as real)
  }

  /** Index j of the index buffer: the quad's first vertex plus the pattern entry. */
  function ExpectedIndex(j: nat): nat {
    4 * (j / 6) + QuadIndexPattern[j % 6]
  }

  /** Vertex j: corner j % 4 of quad j / 4. */
  function ExpectedVertex(j: nat, w: real, h: real): Vec3 {
    Vec3((j / 4) as real * w + CornerDX(j % 4) * w, CornerDY(j % 4) * h, 0.0)
  }

  /** Texture coordinate j: the same corner of character column c, one 128th wide. */
  function ExpectedUV(c: int, j: nat): Vec2 {
    Vec2(c as real / 128.0 + CornerDX(j % 4) / 128.0, CornerDY(j % 4))
  }

  lemma Block4(j: int, i: int)
    requires 4 * i <= j < 4 * i + 4
    ensures j / 4 == i && j % 4 == j - 4 * i
  {
  }

  lemma Block6(j: int, i: int)
    requires 6 * i <= j < 6 * i + 6
    ensures j / 6 == i && j % 6 == j - 6 * i
  {
  }

  /** The four vertices the loop writes for character i. */
  function QuadVertices(i: nat, w: real, h: real): (q: seq<Vec3>)
    ensures |q| == 4
    ensures forall k :: 0 <= k < 4 ==> q[k] == ExpectedVertex(4 * i + k, w, h)
  {
    var baseXCoordinate := (i as real) * w;
    Block4(4 * i + 0, i);
    Block4(4 * i + 1, i);
    Block4(4 * i + 2, i);
    Block4(4 * i + 3, i);
    [Vec3(baseXCoordinate, 0.0, 0.0),
     Vec3(baseXCoordinate + w, 0.0, 0.0),
     Vec3(baseXCoordinate + w, h, 0.0),
     Vec3(baseXCoordinate, h, 0.0)]
  }

  /** The six indices the loop writes for character i. */
  function QuadIndices(i: nat): (q: seq<nat>)
    ensures |q| == 6
    ensures forall k :: 0 <= k < 6 ==> q[k] == ExpectedIndex(6 * i + k)
  {
    Block6(6 * i + 0, i);
    Block6(6 * i + 1, i);
    Block6(6 * i + 2, i);
    Block6(6 * i + 3, i);
    Block6(6 * i + 4, i);
    Block6(6 * i + 5, i);
    [4 * i + 0, 4 * i + 1, 4 * i + 2, 4 * i + 0, 4 * i + 2, 4 * i + 3]
  }

  /** The four texture coordinates the loop writes for a character with code c. */
  function QuadUVs(i: nat, c: int): (q: seq<Vec2>)
    ensures |q| == 4
    ensures forall k :: 0 <= k < 4 ==> q[k] == ExpectedUV(c, 4 * i + k)
  {
    var u := c as real / 128.0;
    var uWidth := 1.0 / 128.0;
    Block4(4 * i + 0, i);
    Block4(4 * i + 1, i);
    Block4(4 * i + 2, i);
    Block4(4 * i + 3, i);
    [Vec2(u, 0.0), Vec2(u + uWidth, 0.0), Vec2(u + uWidth, 1.0), Vec2(u, 1.0)]
  }

  lemma AppendQuadVertices(vs: seq<Vec3>, i: nat, w: real, h: real)
    requires |vs| == 4 * i
    requires forall j :: 0 <= j < |vs| ==> vs[j] == ExpectedVertex(j, w, h)
    ensures forall j :: 0 <= j < 4 * i + 4 ==> (vs + QuadVertices(i, w, h))[j] == ExpectedVertex(j, w, h)
  {
    var q := QuadVertices(i, w, h);
    forall j | 4 * i <= j < 4 * i + 4
      ensures (vs + q)[j] == ExpectedVertex(j, w, h)
    {
      assert (vs + q)[j] == q[j - 4 * i];
    }
  }

  lemma AppendQuadIndices(xs: seq<nat>, i: nat)
    requires |xs| == 6 * i
    requires forall j :: 0 <= j < |xs| ==> xs[j] == ExpectedIndex(j)
    ensures forall j :: 0 <= j < 6 * i + 6 ==> (xs + QuadIndices(i))[j] == ExpectedIndex(j)
  {
    var q := QuadIndices(i);
    forall j | 6 * i <= j < 6 * i + 6
      ensures (xs + q)[j] == ExpectedIndex(j)
    {
      assert (xs + q)[j] == q[j - 6 * i];
    }
  }

  lemma AppendQuadUVs(ts: seq<Vec2>, text: seq<byte>, i: nat)
    requires i < |text| && |ts| == 4 * i
    requires forall j :: 0 <= j < |ts| ==> ts[j] == ExpectedUV(CharCode(text[j / 4]), j)
    ensures forall j :: 0 <= j < 4 * i + 4 ==> (ts + QuadUVs(i, CharCode(text[i])))[j] == ExpectedUV(CharCode(text[j / 4]), j)
  {
    var q := QuadUVs(i, CharCode(text[i]));
    forall j | 4 * i <= j < 4 * i + 4
      ensures (ts + q)[j] == ExpectedUV(CharCode(text[j / 4]), j)
    {
      Block4(j, i);
      assert (ts + q)[j] == q[j - 4 * i];
    }
  }

  method GenerateTextGeometryBuffer(text: seq<byte>, characterHeightOverWidth: real, totalTextWidth: real)
    returns (mesh: Mesh)
    ensures |mesh.vertices| == 4 * |text|
    ensures |mesh.indices| == 6 * |text|
    ensures |mesh.textureCoordinates| == 4 * |text|
    ensures forall j :: 0 <= j < |mesh.indices| ==> mesh.indices[j] == ExpectedIndex(j)
    ensures forall j :: 0 <= j < |mesh.indices| ==> mesh.indices[j] < |mesh.vertices|
    ensures forall j :: 0 <= j < |mesh.vertices| ==>
              mesh.vertices[j] == ExpectedVertex(j, CharacterWidth(text, totalTextWidth),
                                                 characterHeightOverWidth * CharacterWidth(text, totalTextWidth))
    ensures forall j :: 0 <= j < |mesh.textureCoordinates| ==>
              mesh.textureCoordinates[j] == ExpectedUV(CharCode(text[j / 4]), j)
  {
    var characterWidth := CharacterWidth(text, totalTextWidth);
    var characterHeight := characterHeightOverWidth * characterWidth;
    var vertices: seq<Vec3> := [];
    var indices: seq<nat> := [];
    var uvs: seq<Vec2> := [];
    var i := 0;
    while i < |text|
      invariant 0 <= i <= |text|
      invariant |vertices| == 4 * i && |indices| == 6 * i && |uvs| == 4 * i
      invariant forall j :: 0 <= j < |indices| ==> indices[j] == ExpectedIndex(j)
      invariant forall j :: 0 <= j < |vertices| ==> vertices[j] == ExpectedVertex(j, characterWidth, characterHeight)
      invariant forall j :: 0 <= j < |uvs| ==> uvs[j] == ExpectedUV(CharCode(text[j / 4]), j)
    {
      AppendQuadVertices(vertices, i, characterWidth, characterHeight);
      AppendQuadIndices(indices, i);
      AppendQuadUVs(uvs, text, i);
      vertices := vertices + QuadVertices(i, characterWidth, characterHeight);
      indices := indices + QuadIndices(i);
      uvs := uvs + QuadUVs(i, CharCode(text[i]));
      i := i + 1;
    }
    forall j | 0 <= j < |indices|
      ensures indices[j] < |vertices|
    {
      IndexStaysInQuad(j);
    }
    mesh := Mesh(vertices, indices, uvs);
  }

  /** Every index points into the quad of its own character: the two triangles
      of character i use only vertices 4i .. 4i+3. */
  lemma IndexStaysInQuad(j: nat)
    ensures ExpectedIndex(j) / 4 == j / 6
    ensures 4 * (j / 6) <= ExpectedIndex(j) < 4 * (j / 6) + 4
  {
    var q := j / 6;
    assert 0 <= QuadIndexPattern[j % 6] < 4;
    Block4(ExpectedIndex(j), q);
  }

  /** The two triangles of a quad share its diagonal and together use all four corners. */
  lemma QuadTrianglesCoverCorners(i: nat)
    ensures {ExpectedIndex(6 * i), ExpectedIndex(6 * i + 1), ExpectedIndex(6 * i + 2)} == {4 * i, 4 * i + 1, 4 * i + 2}
    ensures {ExpectedIndex(6 * i + 3), ExpectedIndex(6 * i + 4), ExpectedIndex(6 * i + 5)} == {4 * i, 4 * i + 2, 4 * i + 3}
  {
    Block6(6 * i, i);
    Block6(6 * i + 1, i);
    Block6(6 * i + 2, i);
    Block6(6 * i + 3, i);
    Block6(6 * i + 4, i);
    Block6(6 * i + 5, i);
  }

  /** With non-negative sizes, vertex j lies on quad j / 4: x within
      [i w, (i + 1) w], y within [0, h], z zero. */
  lemma VertexWithinQuad(j: nat, w: real, h: real)
    requires 0.0 <= w && 0.0 <= h
    ensures var v := ExpectedVertex(j, w, h);
      var i := (j / 4) as real;
      && i * w <= v.x <= (i + 1.0) * w
      && 0.0 <= v.y <= h
      && v.z == 0.0
  {
    var k := j % 4;
    assert 0.0 <= CornerDX(k) * w <= w;
    assert 0.0 <= CornerDY(k) * h <= h;
  }

  /** Texture coordinate j lies in the character's column [c/128, (c+1)/128] of
      the map, at its bottom or top edge; for a 7-bit character that column is
      inside the map. */
  lemma UVWithinCharacterColumn(c: int, j: nat)
    ensures var t := ExpectedUV(c, j);
      && c as real / 128.0 <= t.u <= c as real / 128.0 + 1.0 / 128.0
      && (t.v == 0.0 || t.v == 1.0)
      && (0 <= c < 128 ==> 0.0 <= t.u <= 1.0)
  {
  }
}

=== FILE: input.dfy ===
/** Pointer input: per-frame press/release edge detection of a mouse button
    (updateFrame) and the clamped paddle axes driven by pointer motion
    (mouseCallback). */
module Input {

  /** The two flags updateFrame keeps per button. pressed is true on every frame
      the button is down; released is true on the first frame it is up again. */
  datatype ButtonState = ButtonState(pressed: bool, released: bool)

  const Untouched := ButtonState(false, false)

  /** One frame of edge detection, given whether the button is down now. */
  function Poll(b: ButtonState, down: bool): (r: ButtonState)
    ensures !(r.pressed && r.released)
    ensures r.pressed <==> down
    ensures r.released <==> (b.pressed && !down)
  {
    if down then ButtonState(true, false) else ButtonState(false, b.pressed)
  }

  /** The flags after each of a series of frames. */
  function PollAll(b: ButtonState, downs: seq<bool>): (r: seq<ButtonState>)
    ensures |r| == |downs|
    decreases |downs|
  {
    if |downs| == 0 then []
    else
      var b' := Poll(b, downs[0]);
      [b'] + PollAll(b', downs[1..])
  }

  /** Over any series of frames, released holds exactly on a frame where the
      button is up and was down on the frame before (or, on the first frame,
      was down before the series began), and never together with pressed. */
  lemma {:induction false} ReleasedOnFirstUpFrame(b: ButtonState, downs: seq<bool>)
    ensures forall k :: 0 <= k < |downs| ==>
              (PollAll(b, downs)[k].released <==> !downs[k] && (if k == 0 then b.pressed else downs[k - 1]))
    ensures forall k :: 0 <= k < |downs| ==> PollAll(b, downs)[k].pressed == downs[k]
    ensures forall k :: 0 <= k < |downs| ==> !(PollAll(b, downs)[k].pressed && PollAll(b, downs)[k].released)
    decreases |downs|
  {
    if |downs| > 0 {
      var b' := Poll(b, downs[0]);
      ReleasedOnFirstUpFrame(b', downs[1..]);
      var r := PollAll(b, downs);
      assert r == [b'] + PollAll(b', downs[1..]);
      forall k | 1 <= k < |downs|
        ensures r[k] == PollAll(b', downs[1..])[k - 1]
        ensures downs[k] == downs[1..][k - 1]
      {
      }
    }
  }

  /** The clamp of mouseCallback: above 1 becomes 1, then below 0 becomes 0. */
  function Clamp01(v: real): (r: real)
    ensures 0.0 <= r <= 1.0
    ensures 0.0 <= v <= 1.0 ==> r == v
    ensures v > 1.0 ==> r == 1.0
    ensures v < 0.0 ==> r == 0.0
  {
    var a := if v > 1.0 then 1.0 else v;
    if a < 0.0 then 0.0 else a
  }

  /** mouseCallback: the pointer's displacement since the last sample, scaled by
      the sensitivity and the window size, moves the paddle axes the opposite way,
      and each axis is clamped to [0, 1]. Re-centring the cursor is left out. */
  function MouseMove(padX: real, padZ: real, deltaX: real, deltaY: real,
                     windowWidth: int, windowHeight: int, sensitivity: real): (r: (real, real))
    requires windowWidth > 0 && windowHeight > 0
    ensures 0.0 <= r.0 <= 1.0 && 0.0 <= r.1 <= 1.0
    ensures 0.0 <= padX - sensitivity * deltaX / windowWidth as real <= 1.0 ==>
              r.0 == padX - sensitivity * deltaX / windowWidth as real
    ensures 0.0 <= padZ - sensitivity * deltaY / windowHeight as real <= 1.0 ==>
              r.1 == padZ - sensitivity * deltaY / windowHeight as real
    ensures padX - sensitivity * deltaX / windowWidth as real > 1.0 ==> r.0 == 1.0
    ensures padX - sensitivity * deltaX / windowWidth as real < 0.0 ==> r.0 == 0.0
    ensures padZ - sensitivity * deltaY / windowHeight as real > 1.0 ==> r.1 == 1.0
    ensures padZ - sensitivity * deltaY / windowHeight as real < 0.0 ==> r.1 == 0.0
  {
    (Clamp01(padX - sensitivity * deltaX / windowWidth as real),
     Clamp01(padZ - sensitivity * deltaY / windowHeight as real))
  }

  /** Clamping is idempotent and monotone. */
  lemma ClampIdempotentMonotone(a: real, b: real)
    ensures Clamp01(Clamp01(a)) == Clamp01(a)
    ensures a <= b ==> Clamp01(a) <= Clamp01(b)
  {
  }
}

=== FILE: keyframes.dfy ===
/** The keyframe timeline: the forward scan that resolves the current keyframe
    from the game's elapsed time, and the piecewise ball height between a
    keyframe's start and end endpoints. */
module KeyFrames {

  datatype KeyFrameAction = Bottom | Top

  /** One timeline entry: a timestamp in seconds and where the ball should be then.
      The program keeps timestamps and directions in two parallel arrays; here
      they are one sequence of pairs. */
  datatype KeyFrame = KeyFrame(timestamp: real, action: KeyFrameAction)

  /** The timeline's required shape: timestamps strictly increase. */
  ghost predicate StrictlyIncreasing(tl: seq<KeyFrame>) {
    forall i, j :: 0 <= i < j < |tl| ==> tl[i].timestamp < tl[j].timestamp
  }

  /** The for loop of updateFrame from index i on: every entry whose timestamp is
      not after t overwrites the current index, so the loop ends on the last such
      entry, or leaves cur as it was when there is none. */
  function ScanFrom(tl: seq<KeyFrame>, i: nat, cur: nat, t: real): (r: nat)
    ensures r == cur || (i <= r < |tl| && tl[r].timestamp <= t)
    ensures forall j :: i <= j < |tl| && tl[j].timestamp <= t ==> j <= r < |tl| && tl[r].timestamp <= t
    ensures forall j :: i <= j < |tl| && r < j ==> t < tl[j].timestamp
    ensures (forall j :: i <= j < |tl| ==> t < tl[j].timestamp) ==> r == cur
    decreases |tl| - i
  {
    if i >= |tl| then cur
    else ScanFrom(tl, i + 1, if t < tl[i].timestamp then cur else i, t)
  }

  /** The scan as updateFrame runs it: from the current keyframe onwards. */
  function ScanKeyFrames(tl: seq<KeyFrame>, cur: nat, t: real): (r: nat)
    ensures r >= cur
    ensures r == cur || (r < |tl| && tl[r].timestamp <= t)
  {
    ScanFrom(tl, cur, cur, t)
  }

  /** On a strictly increasing timeline whose current keyframe has been reached,
      the scan resolves to the last keyframe whose timestamp is at most t:
      exactly the keyframes up to the result have been reached. */
  lemma ScanFindsLastReached(tl: seq<KeyFrame>, cur: nat, t: real)
    requires StrictlyIncreasing(tl)
    requires cur < |tl| && tl[cur].timestamp <= t
    ensures ScanKeyFrames(tl, cur, t) < |tl|
    ensures forall j :: 0 <= j < |tl| ==> (tl[j].timestamp <= t <==> j <= ScanKeyFrames(tl, cur, t))
  {
    var r := ScanKeyFrames(tl, cur, t);
    assert cur <= r < |tl| && tl[r].timestamp <= t;
    forall j | 0 <= j < |tl|
      ensures tl[j].timestamp <= t <==> j <= r
    {
      if j <= r && j < r {
        assert tl[j].timestamp < tl[r].timestamp;
      }
    }
  }

  /** Scanning at a later time never resolves to an earlier keyframe. */
  lemma ScanMonotoneInTime(tl: seq<KeyFrame>, cur: nat, t1: real, t2: real)
    requires t1 <= t2
    ensures ScanKeyFrames(tl, cur, t1) <= ScanKeyFrames(tl, cur, t2)
  {
    var a := ScanKeyFrames(tl, cur, t1);
    if a != cur {
      assert tl[a].timestamp <= t2;
    }
  }

  /** Scanning frame by frame is the same as one scan at the final time: the
      incremental resolution never skips or loses a keyframe. */
  lemma ScanComposes(tl: seq<KeyFrame>, cur: nat, t1: real, t2: real)
    requires t1 <= t2
    ensures ScanKeyFrames(tl, ScanKeyFrames(tl, cur, t1), t2) == ScanKeyFrames(tl, cur, t2)
  {
    var a := ScanKeyFrames(tl, cur, t1);
    if a != cur {
      var b := ScanKeyFrames(tl, a, t2);
      var c := ScanKeyFrames(tl, cur, t2);
      assert tl[a].timestamp <= t2;
      assert a <= c;
      assert c <= b;
      assert b <= c;
    }
  }

  /** The ball height for a keyframe interval, from the bottom height, the vertical
      travel distance and the fraction of the interval elapsed. */
  function BallHeight(origin: KeyFrameAction, destination: KeyFrameAction,
                      bottomY: real, travel: real, fraction: real): (y: real)
    ensures origin == destination ==> y == (if origin == Bottom then bottomY else bottomY + travel)
    ensures origin == Bottom && destination == Top ==> y - bottomY == travel * fraction
    ensures origin == Top && destination == Bottom ==> (bottomY + travel) - y == travel * fraction
  {
    ComplementScale(travel, fraction);
    if origin == Bottom && destination == Bottom then bottomY
    else if origin == Top && destination == Top then bottomY + travel
    else if destination == Bottom then bottomY + travel * (1.0 - fraction)
    else assert origin.Bottom? && destination.Top?; bottomY + travel * fraction
  }

  lemma ComplementScale(travel: real, fraction: real)
    ensures travel * (1.0 - fraction) == travel - travel * fraction
  {
  }

  /** While the fraction is within [0, 1] the ball stays between the bottom and
      top heights. */
  lemma HeightWithinTravel(origin: KeyFrameAction, destination: KeyFrameAction,
                           bottomY: real, travel: real, fraction: real)
    requires 0.0 <= travel && 0.0 <= fraction <= 1.0
    ensures bottomY <= BallHeight(origin, destination, bottomY, travel, fraction) <= bottomY + travel
  {
    assert 0.0 <= travel * fraction <= travel * 1.0;
  }

  /** A rising or falling interval starts at its origin's height and ends at its
      destination's height. */
  lemma HeightAtEndpoints(origin: KeyFrameAction, destination: KeyFrameAction, bottomY: real, travel: real)
    ensures BallHeight(origin, destination, bottomY, travel, 0.0) == (if origin == Bottom then bottomY else bottomY + travel)
    ensures BallHeight(origin, destination, bottomY, travel, 1.0) == (if destination == Bottom then bottomY else bottomY + travel)
  {
  }
}

=== FILE: playfield.dfy ===
/** The play field of updateFrame: the fixed dimensions, the ball's movement
    bounds derived from the box position, the wall clamp-and-reflect, the mapping
    between the paddle axes and ball placement, and the paddle's footprint. */
module PlayField {
  import opened Base

  const BallRadius: real := 3.0
  const BoxDimensions := Vec3(180.0, 90.0, 90.0)
  const PadDimensions := Vec3(30.0, 3.0, 40.0)
  /** Extra inset of the near Z wall, keeping the ball away from the camera. */
  const CameraWallOffset: real := 30.0
  const BallSpeed: real := 60.0
  /** The position updateFrame gives the box node at the end of every frame. */
  const BoxRestPosition := Vec3(0.0, -10.0, -80.0)

  /** The limits of the ball's centre inside the box. */
  datatype Bounds = Bounds(bottomY: real, topY: real, minX: real, maxX: real, minZ: real, maxZ: real)

  /** The bounds for a box at the given position: each wall inset by the ball's
      radius, the floor raised by the paddle's height, the near Z wall also by
      the camera clearance. */
  function BallBounds(box: Vec3): (b: Bounds)
    ensures b.bottomY < b.topY && b.minX < b.maxX && b.minZ < b.maxZ
    ensures b.minX + b.maxX == 2.0 * box.x
    ensures b.bottomY - BallRadius == box.y - BoxDimensions.y / 2.0 + PadDimensions.y
    ensures b.topY + BallRadius == box.y + BoxDimensions.y / 2.0
    ensures box.x - BoxDimensions.x / 2.0 < b.minX && b.maxX < box.x + BoxDimensions.x / 2.0
    ensures box.z - BoxDimensions.z / 2.0 < b.minZ && b.maxZ + CameraWallOffset < box.z + BoxDimensions.z / 2.0
  {
    Bounds(
      box.y - BoxDimensions.y / 2.0 + BallRadius + PadDimensions.y,
      box.y + BoxDimensions.y / 2.0 - BallRadius,
      box.x - BoxDimensions.x / 2.0 + BallRadius,
      box.x + BoxDimensions.x / 2.0 - BallRadius,
      box.z - BoxDimensions.z / 2.0 + BallRadius,
      box.z + BoxDimensions.z / 2.0 - BallRadius - CameraWallOffset)
  }

  /** What one axis of the bounce does, as position p and direction d after it:
      a position below the low wall is put on that wall, one above the high wall
      on that wall, and in both cases the direction component is negated; a
      position between the walls keeps its position and direction. */
  predicate BounceOutcome(pos: real, dir: real, lo: real, hi: real, p: real, d: real) {
    && (lo <= pos <= hi ==> p == pos && d == dir)
    && (pos < lo ==> p == lo && d == -dir)
    && (lo <= pos && hi < pos ==> p == hi && d == -dir)
  }

  /** One axis of the bounce off the walls lo and hi. */
  function BounceAxis(pos: real, dir: real, lo: real, hi: real): (r: (real, real))
    ensures lo <= hi ==> lo <= r.0 <= hi
    ensures BounceOutcome(pos, dir, lo, hi, r.0, r.1)
    ensures !(lo <= pos <= hi) ==> r.1 == -dir && (r.0 == lo || r.0 == hi)
  {
    if pos < lo then (lo, -dir)
    else if pos > hi then (hi, -dir)
    else (pos, dir)
  }

  /** A second bounce changes nothing: a clamped position is already inside. */
  lemma BounceSettles(pos: real, dir: real, lo: real, hi: real)
    requires lo <= hi
    ensures BounceAxis(BounceAxis(pos, dir, lo, hi).0, BounceAxis(pos, dir, lo, hi).1, lo, hi)
            == BounceAxis(pos, dir, lo, hi)
  {
  }

  /** Where the ball waits before the game starts, from the paddle axes: the
      X axis spans [minX, maxX] and the Z axis [minZ, maxZ + CameraWallOffset],
      with axis value 1 at the minimum. */
  function IdleBallX(padX: real, box: Vec3): (x: real)
    ensures var b := BallBounds(box);
      && (padX == 1.0 ==> x == b.minX)
      && (padX == 0.0 ==> x == b.maxX)
      && (0.0 <= padX <= 1.0 ==> b.minX <= x <= b.maxX)
  {
    var b := BallBounds(box);
    ScaleUnitInterval(1.0 - padX, b.maxX - b.minX);
    b.minX + (1.0 - padX) * (b.maxX - b.minX)
  }

  function IdleBallZ(padZ: real, box: Vec3): (z: real)
    ensures var b := BallBounds(box);
      && (padZ == 1.0 ==> z == b.minZ)
      && (padZ == 0.0 ==> z == b.maxZ + CameraWallOffset)
      && (0.0 <= padZ <= 1.0 ==> b.minZ <= z <= b.maxZ + CameraWallOffset)
  {
    var b := BallBounds(box);
    ScaleUnitInterval(1.0 - padZ, (b.maxZ + CameraWallOffset) - b.minZ);
    b.minZ + (1.0 - padZ) * ((b.maxZ + CameraWallOffset) - b.minZ)
  }

  /** A fraction of a positive length lies between 0 and that length. */
  lemma ScaleUnitInterval(f: real, d: real)
    requires d > 0.0
    ensures 0.0 <= f <= 1.0 ==> 0.0 <= f * d <= d
  {
    if 0.0 <= f <= 1.0 {
      assert f * d <= 1.0 * d;
    }
  }

  /** Autoplay: the paddle axes that track the ball. */
  function AutoPadX(x: real, box: Vec3): (a: real)
    ensures var b := BallBounds(box); (x == b.minX ==> a == 1.0) && (x == b.maxX ==> a == 0.0)
  {
    var b := BallBounds(box);
    1.0 - (x - b.minX) / (b.maxX - b.minX)
  }

  function AutoPadZ(z: real, box: Vec3): (a: real)
    ensures var b := BallBounds(box);
      (z == b.minZ ==> a == 1.0) && (z == b.maxZ + CameraWallOffset ==> a == 0.0)
  {
    var b := BallBounds(box);
    1.0 - (z - b.minZ) / ((b.maxZ + CameraWallOffset) - b.minZ)
  }

  /** Autoplay is the exact inverse of the idle placement, in both directions. */
  lemma AutoplayInvertsIdlePlacement(p: real, x: real, z: real, box: Vec3)
    ensures AutoPadX(IdleBallX(p, box), box) == p
    ensures IdleBallX(AutoPadX(x, box), box) == x
    ensures AutoPadZ(IdleBallZ(p, box), box) == p
    ensures IdleBallZ(AutoPadZ(z, box), box) == z
  {
  }

  /** The paddle axes are in [0, 1] exactly when the idle ball lies within its
      placement range, so autoplay keeps the axes in [0, 1] while the ball is
      inside its bounds. */
  lemma AutoplayStaysInRange(x: real, z: real, box: Vec3)
    ensures var b := BallBounds(box);
      b.minX <= x <= b.maxX <==> 0.0 <= AutoPadX(x, box) <= 1.0
    ensures var b := BallBounds(box);
      b.minZ <= z <= b.maxZ + CameraWallOffset <==> 0.0 <= AutoPadZ(z, box) <= 1.0
  {
    var b := BallBounds(box);
    QuotientInUnitRange(x - b.minX, b.maxX - b.minX);
    QuotientInUnitRange(z - b.minZ, (b.maxZ + CameraWallOffset) - b.minZ);
  }

  lemma QuotientInUnitRange(a: real, d: real)
    requires d > 0.0
    ensures 0.0 <= a / d <= 1.0 <==> 0.0 <= a <= d
  {
    var q := a / d;
    assert q * d == a;
    ScaleByPositive(q, d);
  }

  /** Multiplying by a positive number keeps the order relative to 0 and 1. */
  lemma ScaleByPositive(q: real, d: real)
    requires d > 0.0
    ensures q < 0.0 <==> q * d < 0.0
    ensures q > 1.0 <==> q * d > d
  {
  }


  /** The paddle's rectangle on the floor, in world X and Z. */
  datatype Footprint = Footprint(leftX: real, rightX: real, frontZ: real, backZ: real)

  function PadFootprint(box: Vec3, padX: real, padZ: real): (f: Footprint)
    ensures f.rightX - f.leftX == PadDimensions.x
    ensures f.backZ - f.frontZ == PadDimensions.z
  {
    var left := box.x - BoxDimensions.x / 2.0 + (1.0 - padX) * (BoxDimensions.x - PadDimensions.x);
    var front := box.z - BoxDimensions.z / 2.0 + (1.0 - padZ) * (BoxDimensions.z - PadDimensions.z);
    Footprint(left, left + PadDimensions.x, front, front + PadDimensions.z)
  }

  /** With the axes in [0, 1] the paddle stays on the box floor. */
  lemma FootprintInsideBox(box: Vec3, padX: real, padZ: real)
    requires 0.0 <= padX <= 1.0 && 0.0 <= padZ <= 1.0
    ensures box.x - BoxDimensions.x / 2.0 <= PadFootprint(box, padX, padZ).leftX
    ensures PadFootprint(box, padX, padZ).rightX <= box.x + BoxDimensions.x / 2.0
    ensures box.z - BoxDimensions.z / 2.0 <= PadFootprint(box, padX, padZ).frontZ
    ensures PadFootprint(box, padX, padZ).backZ <= box.z + BoxDimensions.z / 2.0
  {
  }

  /** The loss test: the ball's centre is off the paddle in X or in Z. */
  predicate OffPad(ball: Vec3, f: Footprint) {
    ball.x < f.leftX || ball.x > f.rightX || ball.z < f.frontZ || ball.z > f.backZ
  }

  /** The paddle node's position: centred on the footprint, resting on the floor. */
  function PadNodePosition(box: Vec3, padX: real, padZ: real): (p: Vec3)
    ensures var f := PadFootprint(box, padX, padZ);
      2.0 * p.x == f.leftX + f.rightX && 2.0 * p.z == f.frontZ + f.backZ
    ensures p.y + BoxDimensions.y / 2.0 - PadDimensions.y / 2.0 == box.y
  {
    Vec3(box.x - BoxDimensions.x / 2.0 + PadDimensions.x / 2.0 + (1.0 - padX) * (BoxDimensions.x - PadDimensions.x),
         box.y - BoxDimensions.y / 2.0 + PadDimensions.y / 2.0,
         box.z - BoxDimensions.z / 2.0 + PadDimensions.z / 2.0 + (1.0 - padZ) * (BoxDimensions.z - PadDimensions.z))
  }

  /** With autoplay tracking, a ball within its bounds is always over the paddle. */
  lemma AutoplayKeepsBallOnPad(ball: Vec3, box: Vec3)
    requires var b := BallBounds(box); b.minX <= ball.x <= b.maxX && b.minZ <= ball.z <= b.maxZ
    ensures !OffPad(ball, PadFootprint(box, AutoPadX(ball.x, box), AutoPadZ(ball.z, box)))
  {
  }

  function Abs(a: real): real {
    if a < 0.0 then -a else a
  }

  /** The loss test agrees with the drawn paddle: a ball is off the paddle
      exactly when its centre is more than half the paddle's width from the
      paddle node's centre in X, or more than half its depth in Z. */
  lemma OffPadMeansAwayFromPadCentre(ball: Vec3, box: Vec3, padX: real, padZ: real)
    ensures var c := PadNodePosition(box, padX, padZ);
      OffPad(ball, PadFootprint(box, padX, padZ)) <==>
        Abs(ball.x - c.x) > PadDimensions.x / 2.0 || Abs(ball.z - c.z) > PadDimensions.z / 2.0
  {
  }

  /** Before the game starts the ball waits over the paddle: the idle placement
      from any paddle axes in [0, 1] is never off that paddle, including the
      stretch of Z beyond maxZ that only the idle placement reaches. */
  lemma IdleBallOverPad(padX: real, padZ: real, box: Vec3, y: real)
    ensures 0.0 <= padX <= 1.0 && 0.0 <= padZ <= 1.0 ==>
              !OffPad(Vec3(IdleBallX(padX, box), y, IdleBallZ(padZ, box)), PadFootprint(box, padX, padZ))
  {
  }

  /** A centred paddle covers a ball at the centre of its movement range. */
  lemma CentredPaddleCoversCentredBall(box: Vec3, y: real)
    ensures var b := BallBounds(box);
      !OffPad(Vec3((b.minX + b.maxX) / 2.0, y, (b.minZ + b.maxZ) / 2.0), PadFootprint(box, 0.5, 0.5))
  {
  }
}

=== FILE: render_walk.dfy ===
/** The two per-frame walks over the annotated tree: renderNode, which emits the
    uniform, texture and draw calls of each node, and updateLightsInShader, which
    pushes each point light's position and colour. Both visit a node before its
    children and siblings in child-list order. GL calls are modelled as events. */
module RenderWalk {
  import opened Base
  import opened SceneGraph
  import opened Transforms

  /** Which view-projection matrix a node is drawn with: VP or VP_2D. */
  datatype Projection = Perspective3D | Orthographic2D

  /** One GL call of renderNode. Draw stands for glBindVertexArray followed by
      glDrawElements with the node's index count. */
  datatype RenderEvent<M, N> =
    | SetModel(model: M)
    | SetNormal(normal: Option<N>)
    | SetIs2D(is2D: bool)
    | SetUseNormalMap(useNM: bool)
    | SetViewProjection(projection: Projection)
    | BindTexture(textureUnit: nat, texture: Option<nat>)
    | Draw(vao: int, indexCount: nat)

  /** One glUniform3fv call of updateLightsInShader, keyed by the light index. */
  datatype LightUniform =
    | LightPosition(index: int, position: Vec3)
    | LightColor(index: int, color: Option<Vec3>)

  /** The draw call of a geometry node, present only when it has a vertex array. */
  function DrawIfPresent<M, N>(n: SceneNode): seq<RenderEvent<M, N>> {
    if n.vertexArrayObjectID != NoGeometry then [Draw(n.vertexArrayObjectID, n.vaoIndexCount)] else []
  }

  /** The calls renderNode makes for one node before recursing: the model and
      normal uniforms for every node, then the kind-specific part. */
  function NodeEvents<M, N>(p: Placed<M, N>): (r: seq<RenderEvent<M, N>>)
    ensures |r| >= 2 && r[0] == SetModel(p.world) && r[1] == SetNormal(p.normal)
    ensures p.node.kind in {PointLight, SpotLight} <==> |r| == 2
    ensures p.node.kind in {Geometry, NormalMappedGeometry, Geometry2D} ==>
      && |r| >= 5
      && r[2] == SetIs2D(p.node.kind == Geometry2D)
      && r[3] == SetUseNormalMap(p.node.kind == NormalMappedGeometry)
      && r[4] == SetViewProjection(if p.node.kind == Geometry2D then Orthographic2D else Perspective3D)
      && (forall i :: 5 <= i < |r| ==> r[i].BindTexture? || r[i].Draw?)
      && (forall i :: 5 <= i < |r| - 1 ==> r[i].BindTexture?)
    ensures Drawable(p.node) ==> r[|r| - 1] == Draw(p.node.vertexArrayObjectID, p.node.vaoIndexCount)
    ensures !Drawable(p.node) ==> forall i :: 0 <= i < |r| ==> !r[i].Draw?
  {
    var n := p.node;
    [SetModel(p.world), SetNormal(p.normal)] +
    match n.kind
    case Geometry =>
      [SetIs2D(false), SetUseNormalMap(false), SetViewProjection(Perspective3D)] + DrawIfPresent(n)
    case NormalMappedGeometry =>
      [SetIs2D(false), SetUseNormalMap(true), SetViewProjection(Perspective3D),
       BindTexture(0, n.textureID), BindTexture(1, n.normalMapTextureID), BindTexture(2, n.roughnessMapTextureID)]
      + DrawIfPresent(n)
    case Geometry2D =>
      [SetIs2D(true), SetUseNormalMap(false), SetViewProjection(Orthographic2D), BindTexture(0, n.textureID)]
      + DrawIfPresent(n)
    case PointLight => []
    case SpotLight => []
  }

  /** The uniforms updateLightsInShader sets for one node: only point lights push anything. */
  function LightUniforms<M, N>(ops: MatrixOps<M, N>, p: Placed<M, N>): seq<LightUniform> {
    if p.node.kind == PointLight then
      [LightPosition(p.node.lightIndex, ops.translation(p.world)), LightColor(p.node.lightIndex, p.node.lightColor)]
    else []
  }

  /** A depth-first walk that emits visit(node) and then walks each child in order. */
  function Walk<M, N, E>(p: Placed<M, N>, visit: Placed<M, N> -> seq<E>): seq<E>
    decreases p, 1
  {
    visit(p) + WalkAll(p.children, visit)
  }

  function WalkAll<M, N, E>(ps: seq<Placed<M, N>>, visit: Placed<M, N> -> seq<E>): seq<E>
    decreases ps, 0
  {
    if |ps| == 0 then [] else Walk(ps[0], visit) + WalkAll(ps[1..], visit)
  }

  /** renderNode: every node's calls, each node before its children. */
  function RenderNode<M, N>(p: Placed<M, N>): (r: seq<RenderEvent<M, N>>)
    ensures r == ConcatMap(Flatten(p), NodeEvents)
  {
    WalkIsPreOrder(p, NodeEvents);
    Walk(p, NodeEvents)
  }

  /** updateLightsInShader: position then colour for every point light, in
      pre-order, and nothing for any other node; spot lights and geometry are
      only traversed. */
  function UpdateLightsInShader<M, N>(ops: MatrixOps<M, N>, p: Placed<M, N>): (r: seq<LightUniform>)
    ensures r == LightCalls(ops, Flatten(p))
  {
    WalkIsPreOrder(p, q => LightUniforms(ops, q));
    LightsOfConcat(ops, Flatten(p));
    Walk(p, q => LightUniforms(ops, q))
  }

  /** The pre-order listing of an annotated tree. */
  function Flatten<M, N>(p: Placed<M, N>): (r: seq<Placed<M, N>>)
    ensures |r| >= 1 && r[0] == p
    decreases p, 1
  {
    [p] + FlattenAll(p.children)
  }

  function FlattenAll<M, N>(ps: seq<Placed<M, N>>): seq<Placed<M, N>>
    decreases ps, 0
  {
    if |ps| == 0 then [] else Flatten(ps[0]) + FlattenAll(ps[1..])
  }

  /** visit applied to each element of a listing, outputs concatenated. */
  function ConcatMap<T, E>(xs: seq<T>, f: T -> seq<E>): seq<E> {
    if |xs| == 0 then [] else f(xs[0]) + ConcatMap(xs[1..], f)
  }

  lemma {:induction false} ConcatMapAppend<T, E>(a: seq<T>, b: seq<T>, f: T -> seq<E>)
    ensures ConcatMap(a + b, f) == ConcatMap(a, f) + ConcatMap(b, f)
    decreases |a|
  {
    if |a| == 0 {
      assert a + b == b;
    } else {
      assert (a + b)[0] == a[0];
      assert (a + b)[1..] == a[1..] + b;
      ConcatMapAppend(a[1..], b, f);
    }
  }

  /** The recursive walk emits exactly the per-node outputs in pre-order. */
  lemma {:induction false} WalkIsPreOrder<M, N, E>(p: Placed<M, N>, visit: Placed<M, N> -> seq<E>)
    ensures Walk(p, visit) == ConcatMap(Flatten(p), visit)
    decreases p, 1
  {
    WalkAllIsPreOrder(p.children, visit);
    assert ([p] + FlattenAll(p.children))[0] == p;
    assert ([p] + FlattenAll(p.children))[1..] == FlattenAll(p.children);
  }

  lemma {:induction false} WalkAllIsPreOrder<M, N, E>(ps: seq<Placed<M, N>>, visit: Placed<M, N> -> seq<E>)
    ensures WalkAll(ps, visit) == ConcatMap(FlattenAll(ps), visit)
    decreases ps, 0
  {
    if |ps| > 0 {
      WalkIsPreOrder(ps[0], visit);
      WalkAllIsPreOrder(ps[1..], visit);
      ConcatMapAppend(Flatten(ps[0]), FlattenAll(ps[1..]), visit);
    }
  }

  /** A node gets a draw call iff it is a geometry kind with a vertex array. */
  predicate Drawable(n: SceneNode) {
    n.kind in {Geometry, NormalMappedGeometry, Geometry2D} && n.vertexArrayObjectID != NoGeometry
  }

  /** The draw calls of a trace, in order. */
  function Draws<M, N>(es: seq<RenderEvent<M, N>>): (r: seq<RenderEvent<M, N>>)
    ensures forall i :: 0 <= i < |r| ==> r[i].Draw?
  {
    if |es| == 0 then []
    else (if es[0].Draw? then [es[0]] else []) + Draws(es[1..])
  }

  lemma {:induction false} DrawsAppend<M, N>(a: seq<RenderEvent<M, N>>, b: seq<RenderEvent<M, N>>)
    ensures Draws(a + b) == Draws(a) + Draws(b)
    decreases |a|
  {
    if |a| == 0 {
      assert a + b == b;
    } else {
      assert (a + b)[0] == a[0];
      assert (a + b)[1..] == a[1..] + b;
      DrawsAppend(a[1..], b);
    }
  }

  /** The reference list of draw calls: one per drawable node of a listing, in order. */
  function DrawCalls<M, N>(vs: seq<Placed<M, N>>): (r: seq<RenderEvent<M, N>>)
    ensures forall i :: 0 <= i < |r| ==> r[i].Draw? && r[i].vao != NoGeometry
  {
    if |vs| == 0 then []
    else
      (if Drawable(vs[0].node) then [Draw(vs[0].node.vertexArrayObjectID, vs[0].node.vaoIndexCount)] else [])
      + DrawCalls(vs[1..])
  }

  lemma {:induction false} NoDraws<M, N>(es: seq<RenderEvent<M, N>>)
    requires forall i :: 0 <= i < |es| ==> !es[i].Draw?
    ensures Draws(es) == []
    decreases |es|
  {
    if |es| > 0 {
      NoDraws(es[1..]);
    }
  }

  /** One node's events hold a draw call exactly when the node is drawable. */
  lemma NodeDraws<M, N>(p: Placed<M, N>)
    ensures Draws(NodeEvents(p)) ==
              if Drawable(p.node) then [Draw(p.node.vertexArrayObjectID, p.node.vaoIndexCount)] else []
  {
    var n := p.node;
    var head: seq<RenderEvent<M, N>> := [SetModel(p.world), SetNormal(p.normal)];
    NoDraws(head);
    var body: seq<RenderEvent<M, N>> := NodeEvents(p)[2..];
    assert NodeEvents(p) == head + body;
    DrawsAppend(head, body);
    var d: seq<RenderEvent<M, N>> := DrawIfPresent(n);
    assert Draws(d) == d by {
      if |d| > 0 { assert d[1..] == []; }
    }
    match n.kind
    case Geometry =>
      var pre: seq<RenderEvent<M, N>> := [SetIs2D(false), SetUseNormalMap(false), SetViewProjection(Perspective3D)];
      assert body == pre + d;
      DrawsAppend(pre, d);
      NoDraws(pre);
    case NormalMappedGeometry =>
      var pre: seq<RenderEvent<M, N>> :=
        [SetIs2D(false), SetUseNormalMap(true), SetViewProjection(Perspective3D),
         BindTexture(0, n.textureID), BindTexture(1, n.normalMapTextureID), BindTexture(2, n.roughnessMapTextureID)];
      assert body == pre + d;
      DrawsAppend(pre, d);
      NoDraws(pre);
    case Geometry2D =>
      var pre: seq<RenderEvent<M, N>> :=
        [SetIs2D(true), SetUseNormalMap(false), SetViewProjection(Orthographic2D), BindTexture(0, n.textureID)];
      assert body == pre + d;
      DrawsAppend(pre, d);
      NoDraws(pre);
    case PointLight =>
    case SpotLight =>
  }

  /** The texture bindings of a trace, in order. */
  function Bindings<M, N>(es: seq<RenderEvent<M, N>>): (r: seq<RenderEvent<M, N>>)
    ensures forall i :: 0 <= i < |r| ==> r[i].BindTexture?
  {
    if |es| == 0 then []
    else (if es[0].BindTexture? then [es[0]] else []) + Bindings(es[1..])
  }

  lemma {:induction false} BindingsAppend<M, N>(a: seq<RenderEvent<M, N>>, b: seq<RenderEvent<M, N>>)
    ensures Bindings(a + b) == Bindings(a) + Bindings(b)
    decreases |a|
  {
    if |a| == 0 {
      assert a + b == b;
    } else {
      assert (a + b)[0] == a[0];
      assert (a + b)[1..] == a[1..] + b;
      BindingsAppend(a[1..], b);
    }
  }

  lemma {:induction false} NoBindings<M, N>(es: seq<RenderEvent<M, N>>)
    requires forall i :: 0 <= i < |es| ==> !es[i].BindTexture?
    ensures Bindings(es) == []
    decreases |es|
  {
    if |es| > 0 {
      NoBindings(es[1..]);
    }
  }

  lemma {:induction false} OnlyBindings<M, N>(es: seq<RenderEvent<M, N>>)
    requires forall i :: 0 <= i < |es| ==> es[i].BindTexture?
    ensures Bindings(es) == es
    decreases |es|
  {
    if |es| > 0 {
      OnlyBindings(es[1..]);
      assert [es[0]] + es[1..] == es;
    }
  }

  /** The calls after the model and normal uniforms: the kind-specific part. */
  lemma BindingsAfterHead<M, N>(p: Placed<M, N>)
    ensures Bindings(NodeEvents(p)) == Bindings(NodeEvents(p)[2..])
  {
    var head: seq<RenderEvent<M, N>> := [SetModel(p.world), SetNormal(p.normal)];
    NoBindings(head);
    assert NodeEvents(p) == head + NodeEvents(p)[2..];
    BindingsAppend(head, NodeEvents(p)[2..]);
  }

  /** The bindings of flags, then textures, then a draw: just the textures. */
  lemma {:induction false} BindingsBetween<M, N>(flags: seq<RenderEvent<M, N>>, tex: seq<RenderEvent<M, N>>,
                                                d: seq<RenderEvent<M, N>>)
    requires forall i :: 0 <= i < |flags| ==> !flags[i].BindTexture?
    requires forall i :: 0 <= i < |tex| ==> tex[i].BindTexture?
    requires forall i :: 0 <= i < |d| ==> !d[i].BindTexture?
    ensures Bindings(flags + tex + d) == tex
  {
    BindingsAppend(flags + tex, d);
    BindingsAppend(flags, tex);
    NoBindings(flags);
    NoBindings(d);
    OnlyBindings(tex);
  }

  /** Which textures a node binds: normal-mapped geometry binds its diffuse,
      normal and roughness maps to units 0, 1 and 2; 2D geometry binds its
      texture to unit 0; plain geometry and lights bind nothing. */
  lemma NodeTextureBindings<M, N>(p: Placed<M, N>)
    ensures var n := p.node;
      Bindings(NodeEvents(p)) ==
        match n.kind
        case NormalMappedGeometry =>
          [BindTexture(0, n.textureID), BindTexture(1, n.normalMapTextureID), BindTexture(2, n.roughnessMapTextureID)]
        case Geometry2D => [BindTexture(0, n.textureID)]
        case _ => []
  {
    var n := p.node;
    BindingsAfterHead(p);
    var body: seq<RenderEvent<M, N>> := NodeEvents(p)[2..];
    var d: seq<RenderEvent<M, N>> := DrawIfPresent(n);
    match n.kind
    case Geometry =>
      var flags: seq<RenderEvent<M, N>> := [SetIs2D(false), SetUseNormalMap(false), SetViewProjection(Perspective3D)];
      assert body == flags + [] + d;
      BindingsBetween(flags, [], d);
    case NormalMappedGeometry =>
      var flags: seq<RenderEvent<M, N>> := [SetIs2D(false), SetUseNormalMap(true), SetViewProjection(Perspective3D)];
      var tex: seq<RenderEvent<M, N>> :=
        [BindTexture(0, n.textureID), BindTexture(1, n.normalMapTextureID), BindTexture(2, n.roughnessMapTextureID)];
      assert body == flags + tex + d;
      BindingsBetween(flags, tex, d);
    case Geometry2D =>
      var flags: seq<RenderEvent<M, N>> := [SetIs2D(true), SetUseNormalMap(false), SetViewProjection(Orthographic2D)];
      var tex: seq<RenderEvent<M, N>> := [BindTexture(0, n.textureID)];
      assert body == flags + tex + d;
      BindingsBetween(flags, tex, d);
    case PointLight =>
    case SpotLight =>
  }

  lemma {:induction false} DrawsOfConcat<M, N>(vs: seq<Placed<M, N>>)
    ensures Draws(ConcatMap(vs, NodeEvents)) == DrawCalls(vs)
    decreases |vs|
  {
    if |vs| > 0 {
      DrawsAppend(NodeEvents(vs[0]), ConcatMap(vs[1..], NodeEvents));
      NodeDraws(vs[0]);
      DrawsOfConcat(vs[1..]);
    }
  }

  /** The draw calls of a render walk are exactly one per drawable node, in
      pre-order: nodes without a vertex array and light nodes draw nothing. */
  lemma RenderDrawsDrawableNodes<M, N>(p: Placed<M, N>)
    ensures Draws(RenderNode(p)) == DrawCalls(Flatten(p))
  {
    DrawsOfConcat(Flatten(p));
  }

  /** The reference list of light uniforms: position then colour for each point
      light of a listing, in order. */
  function LightCalls<M, N>(ops: MatrixOps<M, N>, vs: seq<Placed<M, N>>): seq<LightUniform> {
    if |vs| == 0 then []
    else
      (if vs[0].node.kind == PointLight then
         [LightPosition(vs[0].node.lightIndex, ops.translation(vs[0].world)),
          LightColor(vs[0].node.lightIndex, vs[0].node.lightColor)]
       else [])
      + LightCalls(ops, vs[1..])
  }

  lemma {:induction false} LightsOfConcat<M, N>(ops: MatrixOps<M, N>, vs: seq<Placed<M, N>>)
    ensures ConcatMap(vs, q => LightUniforms(ops, q)) == LightCalls(ops, vs)
    decreases |vs|
  {
    if |vs| > 0 {
      LightsOfConcat(ops, vs[1..]);
    }
  }

  /** The listing of an annotated tree, read back as nodes, is the scene graph's
      own pre-order listing: the walks visit every node of the scene once. */
  lemma {:induction false} FlattenMatchesPreOrder<M, N>(ops: MatrixOps<M, N>, n: SceneNode, w: M)
    ensures |Flatten(UpdateNodeTransformations(ops, n, w))| == |PreOrder(n)|
    ensures forall i :: 0 <= i < |PreOrder(n)| ==> Flatten(UpdateNodeTransformations(ops, n, w))[i].node == PreOrder(n)[i]
    decreases n, 1
  {
    var p := UpdateNodeTransformations(ops, n, w);
    FlattenAllMatches(ops, n.children, p.children, p.world);
  }

  lemma {:induction false} FlattenAllMatches<M, N>(ops: MatrixOps<M, N>, cs: seq<SceneNode>, ps: seq<Placed<M, N>>, w: M)
    requires |ps| == |cs|
    requires forall i :: 0 <= i < |cs| ==> ps[i] == UpdateNodeTransformations(ops, cs[i], w)
    ensures |FlattenAll(ps)| == |PreOrderAll(cs)|
    ensures forall i :: 0 <= i < |PreOrderAll(cs)| ==> FlattenAll(ps)[i].node == PreOrderAll(cs)[i]
    decreases cs, 0
  {
    if |cs| > 0 {
      FlattenMatchesPreOrder(ops, cs[0], w);
      FlattenAllMatches(ops, cs[1..], ps[1..], w);
    }
  }
}

=== FILE: scene_graph.dfy ===
/** The scene node record and the scene-graph construction operations:
    node creation, light creation with a sequential light index, child
    attachment and the recursive descendant count. */
module SceneGraph {
  import opened Base

  /** The closed set of node kinds; traversals dispatch on it. */
  datatype NodeKind = Geometry | Geometry2D | NormalMappedGeometry | PointLight | SpotLight

  /** A scene node. Children are owned by value, so every value is a proper tree.
      The cached world and normal matrices are not stored here: the transform
      pass returns them in an annotated copy of the tree (module Transforms). */
  datatype SceneNode = SceneNode(
    children: seq<SceneNode>,
    position: Vec3,
    rotation: Vec3,
    scale: Vec3,
    referencePoint: Vec3,
    /** -1 is the "no geometry" sentinel */
    vertexArrayObjectID: int,
    vaoIndexCount: nat,
    kind: NodeKind,
    textureID: Option<nat>,
    normalMapTextureID: Option<nat>,
    roughnessMapTextureID: Option<nat>,
    /** -1 for every node that is not a light */
    lightIndex: int,
    lightColor: Option<Vec3>)

  const NoGeometry: int := -1
  const NoLight: int := -1

  /** The field values the SceneNode constructor establishes. */
  ghost predicate IsDefaultNode(n: SceneNode) {
    && n.children == []
    && n.position == Vec3(0.0, 0.0, 0.0)
    && n.rotation == Vec3(0.0, 0.0, 0.0)
    && n.scale == Vec3(1.0, 1.0, 1.0)
    && n.referencePoint == Vec3(0.0, 0.0, 0.0)
    && n.vertexArrayObjectID == NoGeometry
    && n.vaoIndexCount == 0
    && n.lightIndex == NoLight
    && n.kind == Geometry
    && n.textureID.None? && n.normalMapTextureID.None? && n.roughnessMapTextureID.None?
    && n.lightColor.None?
  }

  /** createSceneNode: a fresh node with the constructor's defaults. */
  function CreateSceneNode(): (n: SceneNode)
    ensures IsDefaultNode(n)
  {
    SceneNode([], Vec3(0.0, 0.0, 0.0), Vec3(0.0, 0.0, 0.0), Vec3(1.0, 1.0, 1.0), Vec3(0.0, 0.0, 0.0),
              NoGeometry, 0, Geometry, None, None, None, NoLight, None)
  }

  /** Any two default nodes are equal: the defaults determine every field. */
  lemma DefaultNodeUnique(a: SceneNode, b: SceneNode)
    requires IsDefaultNode(a) && IsDefaultNode(b)
    ensures a == b
  {
  }

  /** The process-wide light counter, made explicit. */
  datatype LightRegistry = LightRegistry(lightsCount: int)

  const InitialRegistry := LightRegistry(0)

  /** createLightSceneNode: a point light that takes the counter's current value
      as its index and increments the counter. */
  function CreateLightSceneNode(reg: LightRegistry): (res: (SceneNode, LightRegistry))
    ensures res.0.kind == PointLight
    ensures res.0.lightIndex == reg.lightsCount
    ensures res.1.lightsCount == reg.lightsCount + 1
    ensures res.0.(kind := Geometry, lightIndex := NoLight) == CreateSceneNode()
  {
    var light := CreateSceneNode().(kind := PointLight, lightIndex := reg.lightsCount);
    (light, LightRegistry(reg.lightsCount + 1))
  }

  /** n successive calls of createLightSceneNode. */
  function CreateLights(reg: LightRegistry, n: nat): (res: (seq<SceneNode>, LightRegistry))
    ensures |res.0| == n
    ensures res.1.lightsCount == reg.lightsCount + n
    decreases n
  {
    if n == 0 then ([], reg)
    else
      var (light, reg') := CreateLightSceneNode(reg);
      var (rest, reg'') := CreateLights(reg', n - 1);
      ([light] + rest, reg'')
  }

  /** Lights created in a row get the indices c, c+1, ..., c+n-1 and are all point
      lights with otherwise default fields; hence the indices are pairwise distinct. */
  lemma {:induction false} CreateLightsSequential(reg: LightRegistry, n: nat)
    ensures forall i :: 0 <= i < n ==> CreateLights(reg, n).0[i].lightIndex == reg.lightsCount + i
    ensures forall i :: 0 <= i < n ==> CreateLights(reg, n).0[i].kind == PointLight
    ensures forall i, j :: 0 <= i < j < n ==>
              CreateLights(reg, n).0[i].lightIndex != CreateLights(reg, n).0[j].lightIndex
    decreases n
  {
    if n > 0 {
      var reg' := CreateLightSceneNode(reg).1;
      CreateLightsSequential(reg', n - 1);
      var lights := CreateLights(reg, n).0;
      assert lights == [CreateLightSceneNode(reg).0] + CreateLights(reg', n - 1).0;
      forall i | 0 <= i < n
        ensures lights[i].lightIndex == reg.lightsCount + i
        ensures lights[i].kind == PointLight
      {
        if i > 0 {
          assert lights[i] == CreateLights(reg', n - 1).0[i - 1];
        }
      }
    }
  }

  /** addChild: append to the parent's ordered child list; nothing else changes. */
  function AddChild(parent: SceneNode, child: SceneNode): (r: SceneNode)
    ensures |r.children| == |parent.children| + 1
    ensures r.children[..|parent.children|] == parent.children
    ensures r.children[|parent.children|] == child
    ensures r.(children := parent.children) == parent
  {
    parent.(children := parent.children + [child])
  }

  /** totalChildren: the number of direct children plus, for each child, its own total. */
  function TotalChildren(n: SceneNode): (r: nat)
    decreases n, 1
  {
    |n.children| + SumTotals(n.children)
  }

  /** The sum of TotalChildren over a child list. */
  function SumTotals(cs: seq<SceneNode>): (r: nat)
    decreases cs, 0
  {
    if |cs| == 0 then 0 else TotalChildren(cs[0]) + SumTotals(cs[1..])
  }

  /** The pre-order listing of a subtree: the node itself, then each child's subtree in order. */
  function PreOrder(n: SceneNode): (r: seq<SceneNode>)
    ensures |r| >= 1 && r[0] == n
    decreases n, 1
  {
    [n] + PreOrderAll(n.children)
  }

  function PreOrderAll(cs: seq<SceneNode>): (r: seq<SceneNode>)
    ensures |r| >= |cs|
    decreases cs, 0
  {
    if |cs| == 0 then [] else PreOrder(cs[0]) + PreOrderAll(cs[1..])
  }

  lemma {:induction false} PreOrderAllAppend(a: seq<SceneNode>, b: seq<SceneNode>)
    ensures PreOrderAll(a + b) == PreOrderAll(a) + PreOrderAll(b)
    decreases |a|
  {
    if |a| == 0 {
      assert a + b == b;
    } else {
      assert (a + b)[0] == a[0];
      assert (a + b)[1..] == a[1..] + b;
      PreOrderAllAppend(a[1..], b);
    }
  }

  lemma {:induction false} SumTotalsAppend(a: seq<SceneNode>, b: seq<SceneNode>)
    ensures SumTotals(a + b) == SumTotals(a) + SumTotals(b)
    decreases |a|
  {
    if |a| == 0 {
      assert a + b == b;
    } else {
      assert (a + b)[0] == a[0];
      assert (a + b)[1..] == a[1..] + b;
      SumTotalsAppend(a[1..], b);
    }
  }

  /** totalChildren counts exactly the proper descendants: every node of the
      pre-order listing except the node itself. */
  lemma {:induction false} TotalChildrenCountsDescendants(n: SceneNode)
    ensures TotalChildren(n) == |PreOrder(n)| - 1
    decreases n, 1
  {
    TotalChildrenAllCounts(n.children);
  }

  lemma {:induction false} TotalChildrenAllCounts(cs: seq<SceneNode>)
    ensures |cs| + SumTotals(cs) == |PreOrderAll(cs)|
    decreases cs, 0
  {
    if |cs| > 0 {
      TotalChildrenCountsDescendants(cs[0]);
      TotalChildrenAllCounts(cs[1..]);
    }
  }

  /** A leaf has no descendants. */
  lemma LeafHasNoDescendants(n: SceneNode)
    requires n.children == []
    ensures TotalChildren(n) == 0
  {
  }

  /** Attaching a child adds the child and all of its descendants to the count. */
  lemma AddChildCount(parent: SceneNode, child: SceneNode)
    ensures TotalChildren(AddChild(parent, child)) == TotalChildren(parent) + 1 + TotalChildren(child)
  {
    SumTotalsAppend(parent.children, [child]);
    assert [child][1..] == [];
  }

  /** A chain of depth k: k nodes hang below the top, one per level. */
  function Chain(k: nat): (r: SceneNode)
    ensures |r.children| == (if k == 0 then 0 else 1)
  {
    if k == 0 then CreateSceneNode() else AddChild(CreateSceneNode(), Chain(k - 1))
  }

  lemma {:induction false} ChainCount(k: nat)
    ensures TotalChildren(Chain(k)) == k
  {
    if k > 0 {
      ChainCount(k - 1);
      AddChildCount(CreateSceneNode(), Chain(k - 1));
    }
  }
}

=== FILE: transforms.dfy ===
/** Transform propagation (updateNodeTransformations): a depth-first, pre-order
    pass that gives every node a world transform equal to its parent's world
    transform composed with its own local transform, and a normal matrix when
    the node is plain or normal-mapped geometry.

    Matrix contents are not modelled. The matrix types are type parameters
    (M for the 4x4 transform, N for the 3x3 normal matrix) and the operations
    on them are supplied, uninterpreted, in a MatrixOps record. */
module Transforms {
  import opened Base
  import opened SceneGraph

  /** The matrix operations the pass uses: glm's product, translate, rotate
      (angle about an axis), scale, the normal matrix
      transpose(inverse(mat3(m))), and the translation column vec3(m[3]). */
  datatype MatrixOps<!M, N> = MatrixOps(
    multiply: (M, M) -> M,
    translate: Vec3 -> M,
    rotate: (real, Vec3) -> M,
    scale: Vec3 -> M,
    normalMatrix: M -> N,
    translation: M -> Vec3)

  const AxisX := Vec3(1.0, 0.0, 0.0)
  const AxisY := Vec3(0.0, 1.0, 0.0)
  const AxisZ := Vec3(0.0, 0.0, 1.0)

  /** One factor of a local transform, before it is turned into a matrix. */
  datatype Factor = Translate(offset: Vec3) | Rotate(angle: real, axis: Vec3) | Scale(factors: Vec3)

  function FactorMatrix<M, N>(ops: MatrixOps<M, N>, f: Factor): M {
    match f
    case Translate(v) => ops.translate(v)
    case Rotate(a, axis) => ops.rotate(a, axis)
    case Scale(v) => ops.scale(v)
  }

  /** The factors of a node's local transform, leftmost first: move to the
      position, pivot about the reference point, rotate about Y, then X, then Z,
      scale, and undo the pivot. */
  function LocalFactors(n: SceneNode): (fs: seq<Factor>)
    ensures |fs| == 7
    ensures fs[0] == Translate(n.position) && fs[5] == Scale(n.scale)
    ensures fs[1] == Translate(n.referencePoint) && fs[6] == Translate(Neg(n.referencePoint))
    ensures fs[2].Rotate? && fs[3].Rotate? && fs[4].Rotate?
    ensures [fs[2].axis, fs[3].axis, fs[4].axis] == [AxisY, AxisX, AxisZ]
    ensures [fs[2].angle, fs[3].angle, fs[4].angle] == [n.rotation.y, n.rotation.x, n.rotation.z]
  {
    [Translate(n.position), Translate(n.referencePoint),
     Rotate(n.rotation.y, AxisY), Rotate(n.rotation.x, AxisX), Rotate(n.rotation.z, AxisZ),
     Scale(n.scale), Translate(Neg(n.referencePoint))]
  }

  /** acc times the factors of fs, multiplied on the right one after another. */
  function MultiplyRight<M, N>(ops: MatrixOps<M, N>, acc: M, fs: seq<Factor>): M
    decreases |fs|
  {
    if |fs| == 0 then acc else MultiplyRight(ops, ops.multiply(acc, FactorMatrix(ops, fs[0])), fs[1..])
  }

  lemma MultiplyRightStep<M, N>(ops: MatrixOps<M, N>, acc: M, f: Factor, rest: seq<Factor>)
    ensures MultiplyRight(ops, acc, [f] + rest) == MultiplyRight(ops, ops.multiply(acc, FactorMatrix(ops, f)), rest)
  {
    assert ([f] + rest)[0] == f;
    assert ([f] + rest)[1..] == rest;
  }

  /** The node's local transform: the product of its seven factors in order. */
  function LocalTransform<M, N>(ops: MatrixOps<M, N>, n: SceneNode): M {
    var fs := LocalFactors(n);
    MultiplyRight(ops, FactorMatrix(ops, fs[0]), fs[1..])
  }

  /** The product is grouped from the left, as C++ evaluates a chain of operator*:
      ((((((T(position) T(ref)) Ry) Rx) Rz) S(scale)) T(-ref)). */
  lemma LocalTransformGroupsFromLeft<M, N>(ops: MatrixOps<M, N>, n: SceneNode)
    ensures var mul := ops.multiply;
      LocalTransform(ops, n) ==
      mul(mul(mul(mul(mul(mul(
        ops.translate(n.position),
        ops.translate(n.referencePoint)),
        ops.rotate(n.rotation.y, AxisY)),
        ops.rotate(n.rotation.x, AxisX)),
        ops.rotate(n.rotation.z, AxisZ)),
        ops.scale(n.scale)),
        ops.translate(Neg(n.referencePoint)))
  {
    var fs := LocalFactors(n);
    var mul := ops.multiply;
    var a0 := FactorMatrix(ops, fs[0]);
    var a1 := mul(a0, FactorMatrix(ops, fs[1]));
    var a2 := mul(a1, FactorMatrix(ops, fs[2]));
    var a3 := mul(a2, FactorMatrix(ops, fs[3]));
    var a4 := mul(a3, FactorMatrix(ops, fs[4]));
    var a5 := mul(a4, FactorMatrix(ops, fs[5]));
    var a6 := mul(a5, FactorMatrix(ops, fs[6]));
    MultiplyRightStep(ops, a0, fs[1], fs[2..]);
    assert [fs[1]] + fs[2..] == fs[1..];
    MultiplyRightStep(ops, a1, fs[2], fs[3..]);
    assert [fs[2]] + fs[3..] == fs[2..];
    MultiplyRightStep(ops, a2, fs[3], fs[4..]);
    assert [fs[3]] + fs[4..] == fs[3..];
    MultiplyRightStep(ops, a3, fs[4], fs[5..]);
    assert [fs[4]] + fs[5..] == fs[4..];
    MultiplyRightStep(ops, a4, fs[5], fs[6..]);
    assert [fs[5]] + fs[6..] == fs[5..];
    MultiplyRightStep(ops, a5, fs[6], fs[7..]);
    assert [fs[6]] + fs[7..] == fs[6..];
    assert MultiplyRight(ops, a6, fs[7..]) == a6;
  }

  /** The local transform reads only the pose fields of a node. */
  lemma LocalTransformReadsPose<M, N>(ops: MatrixOps<M, N>, a: SceneNode, b: SceneNode)
    requires a.position == b.position && a.rotation == b.rotation
    requires a.scale == b.scale && a.referencePoint == b.referencePoint
    ensures LocalTransform(ops, a) == LocalTransform(ops, b)
  {
  }

  /** Only GEOMETRY and NORMAL_MAPPED_GEOMETRY nodes get a normal matrix;
      GEOMETRY_2D and the light kinds keep whatever they held before. */
  predicate HasNormalMatrix(k: NodeKind) {
    k == Geometry || k == NormalMappedGeometry
  }

  /** A node annotated with the matrices the pass stores into it. normal == None
      means the pass did not write the node's normal matrix. */
  datatype Placed<M, N> = Placed(node: SceneNode, world: M, normal: Option<N>, children: seq<Placed<M, N>>)

  /** updateNodeTransformations(node, transformationThusFar). */
  function UpdateNodeTransformations<M, N>(ops: MatrixOps<M, N>, n: SceneNode, thusFar: M): (p: Placed<M, N>)
    ensures p.node == n
    ensures |p.children| == |n.children|
    ensures p.normal.Some? <==> HasNormalMatrix(n.kind)
    decreases n
  {
    var world := ops.multiply(thusFar, LocalTransform(ops, n));
    Placed(
      n,
      world,
      if HasNormalMatrix(n.kind) then Some(ops.normalMatrix(world)) else None,
      seq(|n.children|, i requires 0 <= i < |n.children| => UpdateNodeTransformations(ops, n.children[i], world)))
  }

  /** The relation every annotated node must satisfy after a pass: its world
      transform is the parent's composed with its local transform, its normal
      matrix is derived from that world transform exactly for geometry kinds,
      and its children are annotated copies of the node's children. */
  ghost predicate Consistent<M, N>(ops: MatrixOps<M, N>, p: Placed<M, N>, parentWorld: M)
    decreases p
  {
    && p.world == ops.multiply(parentWorld, LocalTransform(ops, p.node))
    && p.normal == (if HasNormalMatrix(p.node.kind) then Some(ops.normalMatrix(p.world)) else None)
    && |p.children| == |p.node.children|
    && forall i :: 0 <= i < |p.children| ==>
         p.children[i].node == p.node.children[i] && Consistent(ops, p.children[i], p.world)
  }

  /** The pass produces a consistent annotation, and it is the only one:
      any consistent annotation of the same tree is the pass's result. */
  lemma {:induction false} PassIsConsistent<M, N>(ops: MatrixOps<M, N>, p: Placed<M, N>, thusFar: M)
    ensures Consistent(ops, p, thusFar) <==> p == UpdateNodeTransformations(ops, p.node, thusFar)
    decreases p
  {
    var q := UpdateNodeTransformations(ops, p.node, thusFar);
    forall i | 0 <= i < |p.children| && i < |q.children|
      ensures Consistent(ops, p.children[i], p.world) <==>
                p.children[i] == UpdateNodeTransformations(ops, p.children[i].node, p.world)
    {
      PassIsConsistent(ops, p.children[i], p.world);
    }
    if Consistent(ops, p, thusFar) {
      assert p.children == q.children;
    }
    if p == q {
      forall i | 0 <= i < |q.children|
        ensures Consistent(ops, q.children[i], q.world)
      {
        PassIsConsistent(ops, q.children[i], q.world);
      }
    }
  }

  /** The node reached from n by following the child indices in path, if any. */
  function NodeAt(n: SceneNode, path: seq<nat>): (r: Option<SceneNode>)
    decreases |path|
  {
    if |path| == 0 then Some(n)
    else if path[0] < |n.children| then NodeAt(n.children[path[0]], path[1..])
    else None
  }

  /** The annotation reached from p by following the child indices in path, if any. */
  function PlacedAt<M, N>(p: Placed<M, N>, path: seq<nat>): (r: Option<Placed<M, N>>)
    decreases |path|
  {
    if |path| == 0 then Some(p)
    else if path[0] < |p.children| then PlacedAt(p.children[path[0]], path[1..])
    else None
  }

  /** The product thusFar * L(n0) * L(n1) * ... * L(nk) of the local transforms on
      the way from n down to the end of path, composed left to right. */
  function PathWorld<M, N>(ops: MatrixOps<M, N>, n: SceneNode, path: seq<nat>, thusFar: M): M
    decreases |path|
  {
    var w := ops.multiply(thusFar, LocalTransform(ops, n));
    if |path| == 0 then w
    else if path[0] < |n.children| then PathWorld(ops, n.children[path[0]], path[1..], w)
    else w
  }

  /** Every node reachable from the root is annotated, and its world transform is
      the product of the local transforms along its path from the root. */
  lemma {:induction false} WorldAlongPath<M, N>(ops: MatrixOps<M, N>, n: SceneNode, path: seq<nat>, thusFar: M)
    requires NodeAt(n, path).Some?
    ensures PlacedAt(UpdateNodeTransformations(ops, n, thusFar), path).Some?
    ensures PlacedAt(UpdateNodeTransformations(ops, n, thusFar), path).value.node == NodeAt(n, path).value
    ensures PlacedAt(UpdateNodeTransformations(ops, n, thusFar), path).value.world == PathWorld(ops, n, path, thusFar)
    decreases |path|
  {
    if |path| > 0 {
      var w := ops.multiply(thusFar, LocalTransform(ops, n));
      WorldAlongPath(ops, n.children[path[0]], path[1..], w);
    }
  }
}
